=== FILE: README.md ===
# List controller of the display admin client, in Dafny

This project models the list pages of the display admin client:

- the generic list controller (`list.jsx`). It covers the search/sort/page state read from and written back to the URL query string, the pure pipeline that filters, orders and paginates the rows of the `data` prop, and the toolbar and modal rules.
- the playlist list page (`playlist-list.jsx`). It covers the filter and fetch parameters, the delete modal, and the deletion queue that an effect drains one playlist at a time before reloading the page.
- the group selection table of the screen forms (`select-groups-table.jsx`). It covers adding groups, removing a group by `@id`, and the `@id` lists handed to the form.
- the screen list page (`screen-list.jsx`). It covers the list/calendar view that is read from and written to the `view` URL parameter, and the delete-modal selection rules.

Every handler and effect is a pure step function over immutable state. Outside calls become parameters or results:

- the translation function, the router and the HTTP hooks are not modelled;
- a delete is an action value (`DeleteRequest`) and `window.location.reload` is `Reload`;
- `toLocaleLowerCase` and `idFromUrl` are function-typed parameters, since their code is not part of this model.

The JavaScript built-ins the components rely on are written out in module `Js`:

- `parseInt(s, 10)`, which skips leading whitespace, takes a sign and a digit prefix, and gives `NaN` otherwise; `parseInt(null)` parses the string "null";
- `String(n)`, `slice`, `splice(i, 1)`, `indexOf`, `reverse` and `includes`;
- `??` and `||`.

`URLSearchParams` is an ordered list of key/value pairs in module `UrlParams`. `get` returns the first pair under a key, `delete` drops every pair under a key, and `append` adds a pair at the end.

Modules: `Js` (js.dfy), `UrlParams` (url_params.dfy), `ListView` (list_view.dfy), `PlaylistList` (playlist_list.dfy), `SelectGroupsTable` (select_groups_table.dfy), `ScreenList` (screen_list.dfy).

## Model

| member | source | states |
|---|---|---|
| Js.ParseIntOfIntToString | src/components/util/list/list.jsx:59-61 | `parseInt` of the decimal text `String(n)` gives back `n` for every integer of the model, negatives included (JavaScript numbers bound this; see Left out) |
| Js.Includes | src/components/util/list/list.jsx:151-153 | `includes` is true exactly when the needle occurs at some position of the text |
| Js.Slice | src/components/util/list/list.jsx:86 | `slice` returns a contiguous block of the array, no longer than `end - start`; from a non-negative start it holds the elements from `start` on, and its length is the clamped distance |
| Js.SliceFromEnd | src/components/util/list/list.jsx:86 | with both bounds negative, `slice` counts them from the end of the array, a bound before the beginning standing for the beginning |
| Js.IndexOf | src/components/util/multi-and-table/select-groups-table.jsx:54-58 | `indexOf` is -1 exactly when the value is absent; otherwise it is a position holding the value with no earlier occurrence |
| Js.SpliceOne | src/components/util/multi-and-table/select-groups-table.jsx:59-60 | `splice(i, 1)` on a copy removes the element at `i` when it exists, and the last element when `i` is -1; past the end it removes nothing |
| Js.Reverse | src/components/util/list/list.jsx:195-197 | `reverse` puts element `i` at position `length - 1 - i` |
| UrlParams.SelectAfterPut | src/components/util/list/list.jsx:98-103 | after `delete(key)` and `append(key, value)` there is exactly one pair under the key, holding the value; the pairs under every other key are kept in order |
| UrlParams.GetAfterPut | src/components/screen/screen-list.jsx:57-59 | after `delete`/`append`, `get` returns the value written under that key and what it returned before under any other key |
| ListView.InitialPage | src/components/util/list/list.jsx:59-61 | the initial page is never 0; it is 1 when the `page` parameter is absent, "0" or has no digits |
| ListView.InitialPageOfWritten | src/components/util/list/list.jsx:59-61 | a page number that was written to the URL reads back unchanged; a 0 reads back as 1 |
| ListView.ReadQuery | src/components/util/list/list.jsx:43-57 | the search text is the `search` parameter when present (even empty), else ""; sort and order are the parameters when present and non-empty, else "name" and "asc"; the result has a non-zero page and a non-empty sort path and order |
| ListView.ReadQueryDefaults | src/components/util/list/list.jsx:51-61 | a URL without the four list keys gives search "", sort "name", order "asc", page 1 |
| ListView.PutPaging | src/components/util/list/list.jsx:98-103 | the `sort`, `order` and `page` delete/append leaves exactly one pair under each, holding the current values, and keeps the pairs under every other key in order |
| ListView.SyncUrlAsWritten | src/components/util/list/list.jsx:92-105 | the URL effect as written leaves exactly one `sort`, `order` and `page` pair with the current values, writes `search` only for a non-empty text (keeping the old pairs otherwise), and keeps every other key |
| ListView.SyncUrlAsWrittenKeepsClearedSearch | src/components/util/list/list.jsx:94-97 | once the search text is cleared, the as-written effect leaves the old `search` value in the URL, and reading the URL back restores the old filter |
| ListView.SyncUrl | src/components/util/list/list.jsx:92-105 | the corrected URL effect has one `sort`, `order` and `page` pair with the current values and a `search` pair exactly when the search text is non-empty; every other key is kept |
| ListView.SyncUrlsAgreeOnSearch | src/components/util/list/list.jsx:94-97 | for a non-empty search text the as-written and the corrected effect write the same URL: they differ only when the text is empty |
| ListView.ReadAfterSync | src/components/util/list/list.jsx:92-105 | reading back the URL the corrected effect wrote gives the state that was written: the URL is a faithful snapshot |
| ListView.ReadAfterSyncAsWritten | src/components/util/list/list.jsx:92-105 | reading back the URL the as-written effect wrote gives the state that was written, except that an empty search text reads back as the search the URL held before |
| ListView.SyncAfterRead | src/components/util/list/list.jsx:43-61 | with either effect, writing the state read from a URL and reading again yields the same state |
| ListView.SyncUrlNormalForm | src/components/util/list/list.jsx:93-104 | the corrected effect moves the list keys behind all other pairs, in the order search, sort, order, page; the as-written effect does the same for a non-empty search, and for an empty one leaves the `search` pairs where they were and moves only sort, order and page to the end |
| ListView.SyncUrlIdempotent | src/components/util/list/list.jsx:92-105 | running either effect again for the same state does not change the URL |
| ListView.ToolbarFor | src/components/util/list/list.jsx:225-253 | delete is disabled exactly when nothing is selected (`!selectedRows.length > 0`), merge exactly when fewer than two rows are, and clear exactly when nothing is |
| ListView.Mount | src/components/util/list/list.jsx:43-105 | after mounting with either effect, the state is the one read from the URL, reading the new URL gives that state again, and both modals are closed |
| ListView.Step | src/components/util/list/list.jsx:69-136 | search and sort reset the page to 1; a page change touches only the page; none of the three opens or closes a modal; disabled buttons do nothing; accepting or closing a modal only closes it; with either effect, keys other than the list's are never changed |
| ListView.StepKeepsFaithful | src/components/util/list/list.jsx:92-105 | with the corrected effect, every handler keeps the URL a faithful snapshot of the state |
| ListView.RunKeepsFaithful | src/components/util/list/list.jsx:92-105 | with the corrected effect, over any sequence of events the URL stays a faithful snapshot of the state |
| ListView.SessionStaysFaithful | src/components/util/list/list.jsx:43-136 | with the corrected effect, from mount on, over any events the pagination and headers can produce, reading the URL gives the controller's current state |
| ListView.StepKeepsFaithfulButClearedSearch | src/components/util/list/list.jsx:92-105 | with the effect as written, every handler keeps the URL reading back as the state, except that an empty search text may read back as an older search |
| ListView.RunKeepsFaithfulButClearedSearch | src/components/util/list/list.jsx:92-105 | with the effect as written, the same holds over any sequence of well-formed events |
| ListView.SessionAsWritten | src/components/util/list/list.jsx:43-136 | with the effect as written, from mount on, reading the URL gives the controller's sort, order and page, and its search text whenever that is non-empty |
| ListView.ClearingSearchLosesSnapshot | src/components/util/list/list.jsx:69-97 | with the effect as written, clearing a non-empty search that the URL shows (as a faithful URL does, by ListView.FaithfulShowsSearch) leaves a URL that no longer reads back as the state: it still reads the old search text |
| ListView.StringFieldIsSearchable | src/components/util/list/list.jsx:144-150 | every string field of a row occurs in the text that the search runs over |
| ListView.FilterBySearch | src/components/util/list/list.jsx:144-154 | the filter keeps exactly the rows that match, in their order and as a subsequence, each matching row as many times as the data holds it and no other row; when every row matches, it keeps them all |
| ListView.PageStart | src/components/util/list/list.jsx:85 | a page of number 1 or more starts at a non-negative index; page 0 starts one page before the first; a negative page ends at least one page before the first |
| ListView.Paginate | src/components/util/list/list.jsx:84-87 | a page is a contiguous block of at most `sizeOfPage` rows; from page 1 on it is taken from its start index and holds exactly the rows left there, up to a full page; page 0 is empty; a negative page is the block the same distances from the end of the rows, as `slice` counts negative bounds |
| ListView.PageIsBlock | src/components/util/list/list.jsx:84-87 | page `n` is exactly the rows from its start to the next page's start, cut off at the end |
| ListView.FirstPagesArePrefix | src/components/util/list/list.jsx:84-87 | pages 1 to n laid end to end are the rows before page n + 1, so every row is on exactly one page |
| ListView.InDisplayOrder | src/components/util/list/list.jsx:195-197 | the order "desc" reverses the filtered rows; any other order keeps them |
| ListView.GetTableData | src/components/util/list/list.jsx:186-200 | the reported length is the filtered count, which bounds the page and equals the data length for an empty search; from page 1 on the page holds exactly the filtered rows left from its start, up to `PageSize`, and row `i` is the filtered row at the page start plus `i`, counted from the end for "desc" |
| ListView.TableRowsMatch | src/components/util/list/list.jsx:186-200 | every displayed row comes from the data and matches a non-empty search |
| PlaylistList.Effect | src/components/playlist/playlist-list.jsx:46-56 | with a non-empty queue the effect raises `isDeleting`, removes exactly the head and issues one delete for `idFromUrl(head["@id"])`; with an empty queue it reloads exactly when the last delete succeeded and otherwise does nothing |
| PlaylistList.OpenDeleteModalFor | src/components/playlist/playlist-list.jsx:77-82 | with an item the selection becomes that single `{@id, title}` row, without one it stays; the modal opens either way |
| PlaylistList.HandleDelete | src/components/playlist/playlist-list.jsx:85-89 | confirming makes the selection, in order, the deletion queue, empties the selection and closes the modal |
| PlaylistList.PublishedFilter | src/components/playlist/playlist-list.jsx:121-127 | "all" means no filter, "published" means published only, any other value means unpublished only |
| PlaylistList.Step | src/components/playlist/playlist-list.jsx:67-145 | only the effect issues deletes or reloads, and only the effect changes `isDeleting`; a reload needs a success and an empty queue; `isDeleting` never drops; only confirming can grow the queue; opening and confirming the modal are `OpenDeleteModalFor` and `HandleDelete`; closing it empties the selection and hides it; clearing empties only the selection; `onIsPublished`, `onChangeSort`, `onChangePage` and `onSearch` each set their own field and leave everything else, the queue, the selection and the modal included, as it was |
| PlaylistList.IsDeletingNeverReset | src/components/playlist/playlist-list.jsx:31-56 | once `isDeleting` is true it stays true whatever events follow |
| PlaylistList.ReloadOnlyOnEmptyQueue | src/components/playlist/playlist-list.jsx:53-55 | in any run, a reload comes only from an effect run that saw a successful delete, and the queue was empty just before it |
| PlaylistList.EffectsDeleteInQueueOrder | src/components/playlist/playlist-list.jsx:46-52 | k effect runs on a queue of at least k rows issue the deletes for its first k rows in queue order, whatever the success flags, and leave the rest queued in order |
| PlaylistList.EffectOnEmptyQueue | src/components/playlist/playlist-list.jsx:53-55 | on an empty queue an effect run changes nothing and reloads exactly on success |
| PlaylistList.DrainThenReload | src/components/playlist/playlist-list.jsx:46-56 | one run per queued row plus one after a final success issues every queued delete once, in order, and then one reload |
| PlaylistList.InterleavedDeletesInQueueOrder | src/components/playlist/playlist-list.jsx:46-145 | with filter changes falling between k effect runs, the requests issued are still the deletes of the first k queued rows, first in, first out; the rest stay queued in order and the selection and modal are untouched |
| PlaylistList.ConfirmThenDrain | src/components/playlist/playlist-list.jsx:84-89 | confirming and then draining deletes each selected playlist once, in selection order, then reloads, leaving the selection and queue empty and the modal closed |
| PlaylistList.FetchParams | src/components/playlist/playlist-list.jsx:209-215 | the fetch gets page, title and published as stored; orderBy and order are the sort's path and order, and both are undefined when no sort was chosen |
| PlaylistList.FetchFollowsHandlers | src/components/playlist/playlist-list.jsx:113-145 | each filter handler changes only its own fetch parameter; modal, queue and effect events leave the fetch unchanged |
| PlaylistList.BusyAfterFirstDelete | src/components/playlist/playlist-list.jsx:231 | after the first delete is issued, the `isLoading` prop the page hands to the list stays true in every later state |
| PlaylistList.RowDeleteAroundModal | src/components/playlist/playlist-list.jsx:192-201 | opening the modal for a row disables the per-row delete buttons, and closing or confirming the modal enables them again |
| PlaylistList.InitialFetch | src/components/playlist/playlist-list.jsx:30-38 | on first render every fetch parameter is undefined, and the `isLoading` prop handed to the list is the fetch's own flag |
| SelectGroupsTable.Ids | src/components/util/multi-and-table/select-groups-table.jsx:43 | the `@id` projection has the same length and order as the groups |
| SelectGroupsTable.HandleAdd | src/components/util/multi-and-table/select-groups-table.jsx:39-45 | the dropdown's value becomes the selection, and the form gets the `@id` of every group in order, under the dropdown's id |
| SelectGroupsTable.RemoveFromList | src/components/util/multi-and-table/select-groups-table.jsx:53-68 | a matching `@id` shortens the selection by one; with no match a non-empty selection loses its last group; the form gets `name` and the remaining `@id`s |
| SelectGroupsTable.RemoveFirstMatch | src/components/util/multi-and-table/select-groups-table.jsx:53-61 | the first group with the removed `@id` goes, and all other groups stay in order |
| SelectGroupsTable.RemoveListedGroup | src/components/util/multi-and-table/select-groups-table.jsx:53-67 | with unique `@id`s, removing a listed group takes away exactly that group, and its `@id` is no longer reported |
| SelectGroupsTable.Step | src/components/util/multi-and-table/select-groups-table.jsx:29-68 | a new `selectedGroups` prop replaces the selection without telling the form; an add makes the dropdown's value the selection and tells the form its `@id`s under the field's id; a remove is `removeFromList` on the current selection; every add or remove tells the form exactly the `@id`s the table now holds; removal never grows the selection |
| ScreenList.InitialView | src/components/screen/screen-list.jsx:29-30 | the initial view is the `view` parameter when present (even empty), else "list" |
| ScreenList.WriteView | src/components/screen/screen-list.jsx:56-61 | the effect leaves exactly one `view` pair with the current view and keeps every other key |
| ScreenList.Mount | src/components/screen/screen-list.jsx:29-32 | the page starts with nothing selected and the modal closed |
| ScreenList.ToggleTarget | src/components/screen/screen-list.jsx:212-221 | a toggle button exists exactly in the "list" and "calendar" views, and it switches to the other one of the two |
| ScreenList.ToggleTwice | src/components/screen/screen-list.jsx:212-221 | two toggles bring the view back to where it started |
| ScreenList.Step | src/components/screen/screen-list.jsx:56-221 | toggling changes the view and only the `view` key, and with no toggle button shown changes nothing; opening the modal selects exactly that row and shows the modal; accept and close empty the selection and hide the modal; clear only empties the selection |
| ScreenList.MountWritesView | src/components/screen/screen-list.jsx:56-61 | after mount the URL has one `view` pair naming the shown view, reading it back gives that view, and every other key is kept |
| ScreenList.RunKeepsViewInUrl | src/components/screen/screen-list.jsx:56-61 | over any sequence of events the URL keeps one `view` pair naming the current view, and the other keys the page was opened with |
| ScreenList.ReloadKeepsView | src/components/screen/screen-list.jsx:29-30 | reloading at the URL the page wrote shows the same view |
| ScreenList.ToggleRoundTrip | src/components/screen/screen-list.jsx:212-230 | from the list view one toggle shows the calendar with the chart and a second one returns to the list without it; the URL follows each time |
| ScreenList.ModalSelection | src/components/screen/screen-list.jsx:159-193 | opening the modal for a row disables the per-row delete buttons; accepting or closing enables them again and hides the modal |

## Left out

- Rendering: JSX, react-bootstrap, the translation function, the info modals and their state, and the column definitions, apart from the delete button's `disabled` rule.
- The RTK query and mutation hooks. A fetch is the `FetchQuery` record. A delete is a `DeleteRequest` action. `isSuccess` is the flag carried by each effect run. Request timing, caching and `isLoading` are inputs.
- When React runs the deletion effect. In the source the queue array is mutated in place by `splice`, and the effect re-runs when `isSuccess` changes. In the model each run is an explicit `EffectRun` event.
- `selectedHelper` and `handleSelected`, the checkbox toggle. Their code is not part of this model. The list controller sees only the number of selected rows.
- `idFromUrl` and `toLocaleLowerCase` are function parameters, so Unicode case mapping is not modelled.
- Numbers are integers. Floating-point fields, and `String` of non-integral numbers, are not modelled.
- `parseInt` does not handle the "0x" prefix, which base 10 ignores anyway.
- Whitespace is the set of JavaScript white-space and line-terminator characters, listed explicitly.
- The in-place `reverse()` of the `data` prop and the two `getTableData()` calls per render. `getTableData` is modelled as a pure function of the data.
- The commented-out `sortData`. Also `if (sortBy)`, which is always true and guards nothing.
- Serialising `URLSearchParams` to and from the query string, and `history.replace`. The URL is the list of pairs itself.
- The list effect's own scheduling. After each query-changing event the model rewrites the URL from the URL it had. `ListView.SyncUrlIdempotent` shows that running the effect again changes nothing.
- The screen list's `handleDelete` clears the selection and closes the modal but deletes nothing. The model does the same.
- `removeFromList` before the prop-sync effect has set `selectedData` would fail on `undefined`. The model starts from a sequence.
- The list nested in the screen list page (screen-list.jsx:225) runs its own URL effect, which rewrites `search`, `sort`, `order` and `page`. `ScreenList` models only the `view` effect, so `ScreenList.RunKeepsViewInUrl` speaks of the page's own events; the list's effect is the one `ListView` models, and the two write disjoint keys.
- The list props that `playlist-list.jsx` passes but `list.jsx` never reads (`handleSort`, `handlePageChange`, `totalItems`, `handleSearch`, `handleIsPublished`, `displayPublished`, `isLoading`, `loadingMessage`, `error`, `deleteSuccess`, `handleDelete`). The two components are modelled independently; `PlaylistList.ListBusy` is only the value the page passes as `isLoading`.
- The delete modal of `delete-modal.jsx` maps over `dataStructureToDisplay`, a name it never defines, whenever `show` is true, so as shipped the modal throws on render instead of offering accept and close. The modal code is not part of this model: the page models assume a modal that renders and calls back, which is what the handlers they model are written for.
- The form pages, login, the app shell, the presentational wrappers and `playlists-list.jsx`. They hold no list logic.
- Js.ParseIntOfIntToString: JavaScript numbers are doubles. `String(n)` switches to exponent notation from 1e21 on and `parseInt` is inexact above 2^53, so the round trip holds in the program only for integers of magnitude below 2^53; the model's integers are unbounded and the lemma is stated for all of them.
- Js.Slice: its contract gives the elements of the result only from a non-negative start. The negative bounds that a negative page produces are stated by `Js.SliceFromEnd`.
- ListView.RunKeepsFaithful: stated for events the pagination and the sortable headers can produce, so a page other than 0 and a non-empty sort path and order. A page 0 would be written to the URL and read back as 1. The same restriction applies to `ListView.RunKeepsFaithfulButClearedSearch`, `ListView.SessionAsWritten` and `ListView.SessionStaysFaithful`.
- ListView.InitialPage: the contract names the absent, digit-free and "0" cases and, through `ListView.InitialPageOfWritten`, every page the URL effect writes. Other strings follow the `parseInt` model without a lemma of their own.

Where the code does something other than what one would expect of these pages, the model follows the code:

- A deletion queue would be expected to stop on a failed delete. The code's queue has no failure branch: a run whose `isSuccess` is false still pops and deletes the next playlist.
- A busy flag would be expected to drop once the queue is drained. `isDeleting` is never reset.
- Completion reloads the whole page; it does not refetch the list.
- The playlist fetch sends the search text as `title`, not as `search`.
- A page parameter that is not positive would be expected to fall back to page 1. The code keeps a negative `page` parameter (list.jsx:59-61), and `paginate` then slices from the end of the rows. `ListView.Paginate` states this from-the-end block.
- A cleared search would be expected to leave the URL. The URL effect keeps a stale `search` key (see Findings). The controller takes the effect as a parameter: `ListView.SessionAsWritten` and `ListView.ClearingSearchLosesSnapshot` describe the code as written, and `ListView.SessionStaysFaithful` the corrected effect.

## Findings

| source | as written | input that shows it | evidently intended | confidence | as-written member | corrected member |
|---|---|---|---|---|---|---|
| src/components/util/list/list.jsx:94-97 | `search` is deleted and re-appended only when the search text is non-empty | URL `?search=foo`, then clear the search box: the URL keeps `search=foo`, and a reload shows the "foo" filter again | the URL mirrors the state, so an empty search removes the `search` key | medium, not executed | ListView.SyncUrlAsWritten, with ListView.SyncUrlAsWrittenKeepsClearedSearch and ListView.ClearingSearchLosesSnapshot | ListView.SyncUrl, with ListView.ReadAfterSync and ListView.SessionStaysFaithful |

=== FILE: js.dfy ===
/**
 The slice of JavaScript host semantics that the list components lean on:
 `null`/`undefined`, `parseInt(_, 10)`, `String(n)` for integers, and the
 array and string builtins `slice`, `splice(i, 1)`, `indexOf`, `reverse`
 and `includes`. Each is written out with the same edge cases as the
 ECMAScript builtin (negative indices, NaN, the empty needle).
 */
module Js {

  /** `None` stands for JavaScript's `null` / `undefined`. */
  datatype Option<+T> = None | Some(value: T)

  /** `o ?? d`: the default replaces only a missing value. */
  function Coalesce<T>(o: Option<T>, d: T): T {
    match o
    case Some(v) => v
    case None => d
  }

  /** `o || d` on an optional string: the empty string is falsy too. */
  function OrElse(o: Option<string>, d: string): (r: string)
    ensures o.Some? && o.value != "" ==> r == o.value
    ensures (o.None? || o.value == "") ==> r == d
  {
    if o.Some? && o.value != "" then o.value else d
  }

  /** `Number(b)` for a boolean, as a relational operator coerces it. */
  function BoolToNumber(b: bool): int {
    if b then 1 else 0
  }

  /** `!n` for a number: only zero is falsy among integers. */
  function NotNumber(n: int): bool {
    n == 0
  }

  // ---------------------------------------------------------------------
  // Decimal digits, String(n) and parseInt(s, 10)
  // ---------------------------------------------------------------------

  predicate IsDigit(c: char) {
    '0' <= c <= '9'
  }

  predicate AllDigits(s: string) {
    forall i :: 0 <= i < |s| ==> IsDigit(s[i])
  }

  function DigitValue(c: char): (d: nat)
    requires IsDigit(c)
    ensures d < 10
  {
    c as int - '0' as int
  }

  function DigitChar(d: nat): (c: char)
    requires d < 10
    ensures IsDigit(c) && DigitValue(c) == d
  {
    ('0' as int + d) as char
  }

  /** `String(n)` for a non-negative integer: its decimal digits, most significant first. */
  function NatToString(n: nat): (s: string)
    ensures |s| >= 1 && AllDigits(s)
    decreases n
  {
    if n < 10 then [DigitChar(n)] else NatToString(n / 10) + [DigitChar(n % 10)]
  }

  /** `String(n)` for an integer-valued number. */
  function IntToString(n: int): (s: string)
    ensures |s| >= 1
    ensures n < 0 <==> s[0] == '-'
  {
    if n < 0 then "-" + NatToString(-n) else NatToString(n)
  }

  /** The value of a run of decimal digits, read left to right. */
  function DigitsValue(s: string): nat
    requires AllDigits(s)
  {
    if |s| == 0 then 0 else DigitsValue(s[..|s| - 1]) * 10 + DigitValue(s[|s| - 1])
  }

  /** The white-space and line-terminator characters that `parseInt` skips. */
  predicate IsJsWhitespace(c: char) {
    || c == '\t' || c == '\n' || c == '\U{000B}' || c == '\U{000C}' || c == '\r' || c == ' '
    || c == '\U{00A0}' || c == '\U{1680}' || ('\U{2000}' <= c <= '\U{200A}')
    || c == '\U{2028}' || c == '\U{2029}' || c == '\U{202F}' || c == '\U{205F}'
    || c == '\U{3000}' || c == '\U{FEFF}'
  }

  /** `s` with its leading white space removed. */
  function TrimStart(s: string): (t: string)
    ensures |t| <= |s| && t == s[|s| - |t|..]
    ensures |t| > 0 ==> !IsJsWhitespace(t[0])
  {
    if |s| > 0 && IsJsWhitespace(s[0]) then TrimStart(s[1..]) else s
  }

  /** The longest prefix of `s` made of decimal digits. */
  function DigitPrefix(s: string): (p: string)
    ensures |p| <= |s| && p == s[..|p|] && AllDigits(p)
    ensures |p| < |s| ==> !IsDigit(s[|p|])
  {
    if |s| > 0 && IsDigit(s[0]) then [s[0]] + DigitPrefix(s[1..]) else []
  }

  /** Whether a minus sign leads `t`, and what follows the sign, if any. */
  function SplitSign(t: string): (r: (bool, string))
    ensures |r.1| <= |t| && r.1 == t[|t| - |r.1|..]
  {
    if |t| > 0 && t[0] == '-' then (true, t[1..])
    else if |t| > 0 && t[0] == '+' then (false, t[1..])
    else (false, t)
  }

  /**
   `parseInt(s, 10)`: skip leading white space, read an optional sign, then
   the longest run of decimal digits; `None` is NaN (no digit after the sign).
   */
  function ParseInt(s: string): Option<int> {
    var (negative, body) := SplitSign(TrimStart(s));
    var digits := DigitPrefix(body);
    if |digits| == 0 then None
    else
      var v: int := DigitsValue(digits);
      Some(if negative then -v else v)
  }

  /** `s` holds no decimal digit at all. */
  predicate NoDigits(s: string) {
    forall i :: 0 <= i < |s| ==> !IsDigit(s[i])
  }

  /** A string without a single digit is NaN. */
  lemma ParseIntWithoutDigits(s: string)
    requires NoDigits(s)
    ensures ParseInt(s) == None
  {
    var t := TrimStart(s);
    var body := SplitSign(t).1;
    assert body == s[|s| - |body|..];
    if |body| > 0 {
      assert body[0] == s[|s| - |body|];
    }
  }

  /** `String(x)` of a value that may be `null`: the parameter `page` is read with `get`, which yields `null` when absent. */
  function ToJsString(o: Option<string>): string {
    match o
    case Some(v) => v
    case None => "null"
  }

  lemma {:induction false} DigitsValueOfNatToString(n: nat)
    ensures DigitsValue(NatToString(n)) == n
    decreases n
  {
    var s := NatToString(n);
    if n >= 10 {
      DigitsValueOfNatToString(n / 10);
      assert s[..|s| - 1] == NatToString(n / 10);
    }
  }

  lemma {:induction false} DigitPrefixOfDigits(s: string)
    requires AllDigits(s)
    ensures DigitPrefix(s) == s
    decreases |s|
  {
    if |s| > 0 {
      DigitPrefixOfDigits(s[1..]);
    }
  }

  /** `parseInt(String(n), 10) == n`: the page number survives a trip through the URL. */
  lemma {:induction false} ParseIntOfIntToString(n: int)
    ensures ParseInt(IntToString(n)) == Some(n)
  {
    var s := IntToString(n);
    var m: nat := if n < 0 then -n else n;
    var d := NatToString(m);
    DigitsValueOfNatToString(m);
    DigitPrefixOfDigits(d);
    assert s[0] == '-' || IsDigit(s[0]);
    assert TrimStart(s) == s;
    if n < 0 {
      assert s[1..] == d;
      assert SplitSign(s) == (true, d);
    } else {
      assert s == d;
      assert SplitSign(s) == (false, d);
    }
  }

  // ---------------------------------------------------------------------
  // Array builtins
  // ---------------------------------------------------------------------

  /** How `slice` and `splice` resolve a possibly negative index against a length. */
  function RelativeIndex(i: int, len: nat): (r: nat)
    ensures r <= len
    ensures 0 <= i ==> r == if i <= len then i else len
    ensures i < 0 ==> r == if len + i < 0 then 0 else len + i
  {
    if i < 0 then (if len + i < 0 then 0 else len + i)
    else if i > len then len
    else i
  }

  /** `r` occurs in `s` as a contiguous block starting at index `k`. */
  ghost predicate SegmentAt<T>(r: seq<T>, s: seq<T>, k: int) {
    0 <= k && k + |r| <= |s| && s[k..k + |r|] == r
  }

  /** Every element of a block of `s` is an element of `s`. */
  lemma SegmentMembers<T>(r: seq<T>, s: seq<T>, k: int)
    requires SegmentAt(r, s, k)
    ensures forall x :: x in r ==> x in s
  {
    forall x | x in r
      ensures x in s
    {
      var j :| 0 <= j < |r| && r[j] == x;
      assert s[k + j] == x;
    }
  }

  /** `s.slice(start, end)`: a contiguous block, never longer than the requested span. */
  function Slice<T>(s: seq<T>, start: int, end: int): (r: seq<T>)
    ensures exists k :: SegmentAt(r, s, k)
    ensures start <= end ==> |r| <= end - start
    ensures 0 <= start ==> forall i :: 0 <= i < |r| ==> start + i < |s| && r[i] == s[start + i]
    ensures 0 <= start <= end ==> |r| == (if end <= |s| then end else |s|) - (if start <= |s| then start else |s|)
    ensures end == 0 ==> r == []
  {
    var from := RelativeIndex(start, |s|);
    var to := RelativeIndex(end, |s|);
    if from < to then
      assert SegmentAt(s[from..to], s, from);
      s[from..to]
    else
      assert SegmentAt([], s, 0);
      []
  }

  /** With non-negative bounds, `slice` is the block between them, cut off at the end of `s`. */
  lemma SliceWithin<T>(s: seq<T>, start: int, end: int)
    requires 0 <= start <= end
    ensures start <= |s| ==> Slice(s, start, end) == s[start..if end <= |s| then end else |s|]
    ensures start >= |s| ==> Slice(s, start, end) == []
  {
  }

  /**
   With negative bounds, `slice` counts both from the end of `s`, a bound
   before the beginning standing for the beginning.
   */
  lemma SliceFromEnd<T>(s: seq<T>, start: int, end: int)
    ensures start <= end < 0 ==>
      var from, to := |s| + start, |s| + end;
      Slice(s, start, end) == s[if from < 0 then 0 else from..if to < 0 then 0 else to]
  {
  }

  /**
   `s.splice(start, 1)` on a copy of `s`: the element at the resolved index
   is removed, and nothing is removed when that index is past the end. In
   particular `splice(-1, 1)` drops the last element of a non-empty array.
   */
  function SpliceOne<T>(s: seq<T>, start: int): (r: seq<T>)
    ensures 0 <= start < |s| ==> r == s[..start] + s[start + 1..]
    ensures start == -1 && |s| > 0 ==> r == s[..|s| - 1]
    ensures (start >= |s| || |s| == 0) ==> r == s
    ensures |r| == |s| - 1 || r == s
  {
    var k := RelativeIndex(start, |s|);
    if k < |s| then s[..k] + s[k + 1..] else s
  }

  /** `s.indexOf(x)`: the first position of `x`, or -1 when `x` is absent. */
  function IndexOf<T(==)>(s: seq<T>, x: T): (r: int)
    ensures -1 <= r < |s|
    ensures r == -1 <==> x !in s
    ensures 0 <= r ==> s[r] == x && x !in s[..r]
  {
    if |s| == 0 then -1
    else if s[0] == x then 0
    else
      var k := IndexOf(s[1..], x);
      if k == -1 then -1
      else
        assert s[..k + 1] == [s[0]] + s[1..][..k];
        k + 1
  }

  /** `s.reverse()` on a copy: position `i` receives the element `i` places from the end. */
  function Reverse<T>(s: seq<T>): (r: seq<T>)
    ensures |r| == |s|
    ensures forall i :: 0 <= i < |s| ==> r[i] == s[|s| - 1 - i]
  {
    if |s| == 0 then [] else Reverse(s[1..]) + [s[0]]
  }

  /** `needle` occurs in `hay` starting at index `i`. */
  predicate OccursAt(needle: string, hay: string, i: int) {
    0 <= i && i + |needle| <= |hay| && hay[i..i + |needle|] == needle
  }

  /** `needle + rest` starts with `needle`. */
  lemma OccursAtStart(needle: string, rest: string)
    ensures OccursAt(needle, needle + rest, 0)
  {
    assert (needle + rest)[0..|needle|] == needle;
  }

  /** An occurrence in `b` is an occurrence in `a + b`, `|a|` places further on. */
  lemma OccursAfter(needle: string, a: string, b: string, k: int)
    requires OccursAt(needle, b, k)
    ensures OccursAt(needle, a + b, |a| + k)
  {
    assert (a + b)[|a| + k..|a| + k + |needle|] == b[k..k + |needle|];
  }

  /** `hay.includes(needle)`: some position of `hay` starts a copy of `needle`. */
  function Includes(hay: string, needle: string): (r: bool)
    ensures r <==> exists i :: OccursAt(needle, hay, i)
    decreases |hay|
  {
    if needle <= hay then
      assert OccursAt(needle, hay, 0);
      true
    else if |hay| == 0 then
      false
    else
      var rest := Includes(hay[1..], needle);
      if rest then
        var j :| OccursAt(needle, hay[1..], j);
        assert OccursAt(needle, hay, j + 1) by {
          assert hay[j + 1..j + 1 + |needle|] == hay[1..][j..j + |needle|];
        }
        true
      else
        assert !OccursAt(needle, hay, 0);
        assert forall i :: OccursAt(needle, hay, i) && i > 0 ==> OccursAt(needle, hay[1..], i - 1) by {
          forall i | OccursAt(needle, hay, i) && i > 0
            ensures OccursAt(needle, hay[1..], i - 1)
          {
            assert hay[1..][i - 1..i - 1 + |needle|] == hay[i..i + |needle|];
          }
        }
        false
  }
}

=== FILE: list_view.dfy ===
/**
 The generic list controller of `src/components/util/list/list.jsx`: the
 search/sort/page query state, its two-way link with the URL query string,
 the pure pipeline that turns the `data` prop into the rows of one page, the
 toolbar's enablement rules and the delete/merge confirmation modals.

 The selection itself belongs to the parent page; the controller only sees
 how many rows are selected and whether the merge button is wanted.
 */
module ListView {
  import opened Js
  import opened UrlParams

  /** Rows per page. */
  const PageSize: nat := 10

  datatype SortBy = SortBy(path: string, order: string)

  datatype Query = Query(searchText: string, sortBy: SortBy, page: int)

  /** What reading the URL can produce: a page other than 0, a non-empty sort path and order. */
  predicate WellFormed(q: Query) {
    q.page != 0 && q.sortBy.path != "" && q.sortBy.order != ""
  }

  // ---------------------------------------------------------------------
  // Reading the query state from the URL
  // ---------------------------------------------------------------------

  /**
   The initial page: `parseInt(page, 10)` when that is truthy, else 1. So an
   absent, non-numeric or zero parameter gives page 1; a negative number is
   kept.
   */
  function InitialPage(param: Option<string>): (page: int)
    ensures page != 0
    ensures param.None? ==> page == 1
    ensures param == Some("0") ==> page == 1
    ensures param.Some? && NoDigits(param.value) ==> page == 1
  {
    var parsed := ParseInt(ToJsString(param));
    assert param.None? ==> parsed == None by {
      if param.None? {
        NullIsNaN();
      }
    }
    assert param.Some? && NoDigits(param.value) ==> parsed == None by {
      if param.Some? && NoDigits(param.value) {
        ParseIntWithoutDigits(param.value);
      }
    }
    assert param == Some("0") ==> parsed == Some(0) by {
      if param == Some("0") {
        ZeroParsesToZero();
      }
    }
    match parsed
    case Some(n) => if n != 0 then n else 1
    case None => 1
  }

  lemma NullIsNaN()
    ensures ParseInt("null") == None
  {
    ParseIntWithoutDigits("null");
  }

  lemma ZeroParsesToZero()
    ensures ParseInt("0") == Some(0)
  {
    ParseIntOfIntToString(0);
    assert IntToString(0) == "0";
  }

  /** A page number written by the URL effect is read back unchanged, unless it is 0. */
  lemma InitialPageOfWritten(n: int)
    ensures InitialPage(Some(IntToString(n))) == if n != 0 then n else 1
  {
    ParseIntOfIntToString(n);
  }

  /**
   The state the controller starts from: `search` when present (even empty),
   else ""; `sort` and `order` when present and non-empty, else "name" and
   "asc"; the page as `InitialPage` reads it.
   */
  function ReadQuery(u: Params): (q: Query)
    ensures WellFormed(q)
    ensures Get(u, "search").Some? ==> q.searchText == Get(u, "search").value
    ensures Get(u, "search").None? ==> q.searchText == ""
    ensures Get(u, "sort").Some? && Get(u, "sort").value != "" ==> q.sortBy.path == Get(u, "sort").value
    ensures Get(u, "sort").None? || Get(u, "sort").value == "" ==> q.sortBy.path == "name"
    ensures Get(u, "order").Some? && Get(u, "order").value != "" ==> q.sortBy.order == Get(u, "order").value
    ensures Get(u, "order").None? || Get(u, "order").value == "" ==> q.sortBy.order == "asc"
  {
    Query(
      Coalesce(Get(u, "search"), ""),
      SortBy(OrElse(Get(u, "sort"), "name"), OrElse(Get(u, "order"), "asc")),
      InitialPage(Get(u, "page")))
  }

  /** A URL with none of the four keys yields the documented defaults. */
  lemma ReadQueryDefaults(u: Params)
    requires forall i :: 0 <= i < |u| ==> !IsListKey(u[i].0)
    ensures ReadQuery(u) == Query("", SortBy("name", "asc"), 1)
  {
  }

  // ---------------------------------------------------------------------
  // Writing the query state back into the URL
  // ---------------------------------------------------------------------

  /** The keys the controller owns in the query string. */
  predicate IsListKey(k: string) {
    k == "search" || k == "sort" || k == "order" || k == "page"
  }

  /** The keys of the paging part of the state, which the effect always rewrites. */
  predicate IsPagingKey(k: string) {
    k == "sort" || k == "order" || k == "page"
  }

  /**
   The part of the URL effect that runs whatever the search text:
   `delete`/`append` of `sort`, `order` and `page`, in that order.
   */
  function PutPaging(w: Params, q: Query): (r: Params)
    ensures Select(r, "sort") == [("sort", q.sortBy.path)]
    ensures Select(r, "order") == [("order", q.sortBy.order)]
    ensures Select(r, "page") == [("page", IntToString(q.page))]
    ensures forall k :: !IsPagingKey(k) ==> Select(r, k) == Select(w, k)
  {
    var p2 := Put(w, "sort", q.sortBy.path);
    var p3 := Put(p2, "order", q.sortBy.order);
    SelectAfterPut(w, "sort", q.sortBy.path);
    SelectAfterPut(p2, "order", q.sortBy.order);
    SelectAfterPut(p3, "page", IntToString(q.page));
    Put(p3, "page", IntToString(q.page))
  }

  /**
   The URL effect as written: `search` is rewritten only when the search text
   is non-empty; `sort`, `order` and `page` are always deleted and appended.
   */
  function SyncUrlAsWritten(q: Query, u: Params): (r: Params)
    ensures Select(r, "sort") == [("sort", q.sortBy.path)]
    ensures Select(r, "order") == [("order", q.sortBy.order)]
    ensures Select(r, "page") == [("page", IntToString(q.page))]
    ensures q.searchText != "" ==> Select(r, "search") == [("search", q.searchText)]
    ensures q.searchText == "" ==> Select(r, "search") == Select(u, "search")
    ensures forall k :: !IsListKey(k) ==> Select(r, k) == Select(u, k)
  {
    SelectAfterPut(u, "search", q.searchText);
    PutPaging(if q.searchText != "" then Put(u, "search", q.searchText) else u, q)
  }

  /**
   Once the search box is cleared the as-written effect leaves the old
   `search` pair in the URL, so reading the URL back restores the old filter.
   */
  lemma SyncUrlAsWrittenKeepsClearedSearch(q: Query, u: Params, previous: string)
    requires q.searchText == "" && Get(u, "search") == Some(previous) && previous != ""
    ensures ReadQuery(SyncUrlAsWritten(q, u)).searchText == previous
    ensures ReadQuery(SyncUrlAsWritten(q, u)) != q
  {
    GetIsFirstSelected(u, "search");
    GetIsFirstSelected(SyncUrlAsWritten(q, u), "search");
  }

  /**
   The URL effect as intended: the `search` pair is dropped when the search
   text is empty, so that the URL is a faithful snapshot of the state.
   */
  function SyncUrl(q: Query, u: Params): (r: Params)
    ensures Select(r, "sort") == [("sort", q.sortBy.path)]
    ensures Select(r, "order") == [("order", q.sortBy.order)]
    ensures Select(r, "page") == [("page", IntToString(q.page))]
    ensures Select(r, "search") == if q.searchText != "" then [("search", q.searchText)] else []
    ensures forall k :: !IsListKey(k) ==> Select(r, k) == Select(u, k)
  {
    SelectOfDelete(u, "search");
    SelectAfterPut(u, "search", q.searchText);
    PutPaging(if q.searchText != "" then Put(u, "search", q.searchText) else Delete(u, "search"), q)
  }

  /** With a non-empty search text the two effects write the same URL. */
  lemma SyncUrlsAgreeOnSearch(q: Query, u: Params)
    requires q.searchText != ""
    ensures SyncUrlAsWritten(q, u) == SyncUrl(q, u)
  {
  }

  /** Reading back what `SyncUrl` wrote gives the state that was written. */
  lemma ReadAfterSync(q: Query, u: Params)
    requires WellFormed(q)
    ensures ReadQuery(SyncUrl(q, u)) == q
  {
    var r := SyncUrl(q, u);
    GetIsFirstSelected(r, "search");
    GetIsFirstSelected(r, "sort");
    GetIsFirstSelected(r, "order");
    GetIsFirstSelected(r, "page");
    InitialPageOfWritten(q.page);
  }

  /**
   Reading back what the as-written effect wrote gives the state that was
   written, except that an empty search text reads back as whatever search
   the URL held before.
   */
  lemma ReadAfterSyncAsWritten(q: Query, u: Params)
    requires WellFormed(q)
    ensures ReadQuery(SyncUrlAsWritten(q, u))
      == q.(searchText := if q.searchText != "" then q.searchText else ReadQuery(u).searchText)
  {
    var r := SyncUrlAsWritten(q, u);
    GetIsFirstSelected(u, "search");
    GetIsFirstSelected(r, "search");
    GetIsFirstSelected(r, "sort");
    GetIsFirstSelected(r, "order");
    GetIsFirstSelected(r, "page");
    InitialPageOfWritten(q.page);
  }

  /**
   Writing the state that was read from a URL and reading again gives that
   state, with either effect: a state read from the URL has its search text
   already there.
   */
  lemma SyncAfterRead(u: Params)
    ensures ReadQuery(SyncUrl(ReadQuery(u), u)) == ReadQuery(u)
    ensures ReadQuery(SyncUrlAsWritten(ReadQuery(u), u)) == ReadQuery(u)
  {
    ReadAfterSync(ReadQuery(u), u);
    ReadAfterSyncAsWritten(ReadQuery(u), u);
  }

  /** The URL with `sort`, `order` and `page` removed. */
  function StripPaging(u: Params): (r: Params)
    ensures forall i :: 0 <= i < |r| ==> !IsPagingKey(r[i].0) && r[i] in u
  {
    var d1 := Delete(u, "sort");
    var d2 := Delete(d1, "order");
    DeleteMembers(u, "sort");
    DeleteMembers(d1, "order");
    DeleteMembers(d2, "page");
    Delete(d2, "page")
  }

  /** The URL with the controller's four keys removed. */
  function Strip(u: Params): (r: Params)
    ensures forall i :: 0 <= i < |r| ==> !IsListKey(r[i].0) && r[i] in u
  {
    DeleteMembers(u, "search");
    StripPaging(Delete(u, "search"))
  }

  /** The pairs `PutPaging` appends, in the order it appends them. */
  function PagingTail(q: Query): Params {
    [("sort", q.sortBy.path), ("order", q.sortBy.order), ("page", IntToString(q.page))]
  }

  /** The pairs `SyncUrl` appends, in the order it appends them. */
  function Tail(q: Query): Params {
    (if q.searchText != "" then [("search", q.searchText)] else []) + PagingTail(q)
  }

  lemma PutPast(a: Params, t: Params, key: string, value: string)
    requires forall x :: x in t ==> x.0 != key
    ensures Put(a + t, key, value) == Delete(a, key) + (t + [(key, value)])
  {
    DeleteConcat(a, t, key);
    assert forall i :: 0 <= i < |t| ==> t[i] in t;
    DeleteAbsent(t, key);
  }

  /** `PutPaging` strips the paging keys from the front part and puts them, in order, after the rest. */
  lemma PutPagingNormalForm(d: Params, s: Params, q: Query)
    requires forall x :: x in s ==> !IsPagingKey(x.0)
    ensures PutPaging(d + s, q) == StripPaging(d) + (s + PagingTail(q))
  {
    var v1, v2, v3 := q.sortBy.path, q.sortBy.order, IntToString(q.page);
    var t2 := s + [("sort", v1)];
    var t3 := t2 + [("order", v2)];
    var d2 := Delete(d, "sort");
    var d3 := Delete(d2, "order");
    assert Put(d + s, "sort", v1) == d2 + t2 by {
      PutPast(d, s, "sort", v1);
    }
    assert Put(d2 + t2, "order", v2) == d3 + t3 by {
      PutPast(d2, t2, "order", v2);
    }
    assert Put(d3 + t3, "page", v3) == Delete(d3, "page") + (t3 + [("page", v3)]) by {
      PutPast(d3, t3, "page", v3);
    }
    assert t3 + [("page", v3)] == s + PagingTail(q);
  }

  /**
   Both effects move the keys they write behind all other pairs, in the order
   search, sort, order, page. As written, with an empty search text, the
   `search` pairs are not touched and stay where they were among the others.
   */
  lemma SyncUrlNormalForm(q: Query, u: Params)
    ensures SyncUrl(q, u) == Strip(u) + Tail(q)
    ensures SyncUrlAsWritten(q, u) == if q.searchText != "" then Strip(u) + Tail(q) else StripPaging(u) + PagingTail(q)
  {
    CorrectedNormalForm(q, u);
    if q.searchText != "" {
      SyncUrlsAgreeOnSearch(q, u);
    } else {
      ClearedNormalForm(q, u);
    }
  }

  lemma ClearedNormalForm(q: Query, u: Params)
    requires q.searchText == ""
    ensures SyncUrlAsWritten(q, u) == StripPaging(u) + PagingTail(q)
  {
    assert u + [] == u;
    PutPagingNormalForm(u, [], q);
    assert [] + PagingTail(q) == PagingTail(q);
  }

  lemma CorrectedNormalForm(q: Query, u: Params)
    ensures SyncUrl(q, u) == Strip(u) + Tail(q)
  {
    var s: Params := if q.searchText != "" then [("search", q.searchText)] else [];
    var d1 := Delete(u, "search");
    assert (if q.searchText != "" then Put(u, "search", q.searchText) else Delete(u, "search")) == d1 + s;
    PutPagingNormalForm(d1, s, q);
    assert s + PagingTail(q) == Tail(q);
  }

  lemma StripPagingConcat(a: Params, b: Params)
    ensures StripPaging(a + b) == StripPaging(a) + StripPaging(b)
  {
    DeleteConcat(a, b, "sort");
    DeleteConcat(Delete(a, "sort"), Delete(b, "sort"), "order");
    DeleteConcat(Delete(Delete(a, "sort"), "order"), Delete(Delete(b, "sort"), "order"), "page");
  }

  lemma StripPagingStripped(a: Params)
    requires forall i :: 0 <= i < |a| ==> !IsPagingKey(a[i].0)
    ensures StripPaging(a) == a
  {
    DeleteAbsent(a, "sort");
    DeleteAbsent(a, "order");
    DeleteAbsent(a, "page");
  }

  lemma {:induction false} StripPagingOnlyKeys(t: Params)
    requires forall i :: 0 <= i < |t| ==> IsPagingKey(t[i].0)
    ensures StripPaging(t) == []
    decreases |t|
  {
    if |t| > 0 {
      var x := t[0];
      assert t == [x] + t[1..];
      StripPagingConcat([x], t[1..]);
      StripPagingOnlyKeys(t[1..]);
      assert StripPaging([x]) == [] by {
        assert IsPagingKey(x.0);
        assert [x][1..] == [];
      }
    }
  }

  /** Stripping a URL whose paging keys all come after the other pairs gives back the other pairs. */
  lemma StripPagingNormalForm(a: Params, t: Params)
    requires forall i :: 0 <= i < |a| ==> !IsPagingKey(a[i].0)
    requires forall i :: 0 <= i < |t| ==> IsPagingKey(t[i].0)
    ensures StripPaging(a + t) == a
  {
    StripPagingConcat(a, t);
    StripPagingStripped(a);
    StripPagingOnlyKeys(t);
  }

  /** Stripping a URL whose list keys all come after the other pairs gives back the other pairs. */
  lemma StripNormalForm(a: Params, t: Params)
    requires forall i :: 0 <= i < |a| ==> !IsListKey(a[i].0)
    requires forall i :: 0 <= i < |t| ==> IsListKey(t[i].0)
    ensures Strip(a + t) == a
  {
    DeleteConcat(a, t, "search");
    DeleteAbsent(a, "search");
    DeleteMembers(t, "search");
    var ts := Delete(t, "search");
    assert forall i :: 0 <= i < |ts| ==> IsPagingKey(ts[i].0) by {
      forall i | 0 <= i < |ts|
        ensures IsPagingKey(ts[i].0)
      {
        assert ts[i] in ts;
      }
    }
    StripPagingNormalForm(a, ts);
  }

  /** The pairs `SyncUrl` appends are all under the controller's keys. */
  lemma TailKeys(q: Query)
    ensures forall i :: 0 <= i < |Tail(q)| ==> IsListKey(Tail(q)[i].0)
    ensures forall i :: 0 <= i < |PagingTail(q)| ==> IsPagingKey(PagingTail(q)[i].0)
  {
  }

  /** Running either URL effect a second time for the same state changes nothing. */
  lemma SyncUrlIdempotent(q: Query, u: Params)
    ensures SyncUrl(q, SyncUrl(q, u)) == SyncUrl(q, u)
    ensures SyncUrlAsWritten(q, SyncUrlAsWritten(q, u)) == SyncUrlAsWritten(q, u)
  {
    var r := SyncUrl(q, u);
    SyncUrlNormalForm(q, u);
    SyncUrlNormalForm(q, r);
    TailKeys(q);
    StripNormalForm(Strip(u), Tail(q));
    var w := SyncUrlAsWritten(q, u);
    SyncUrlNormalForm(q, w);
    if q.searchText == "" {
      StripPagingNormalForm(StripPaging(u), PagingTail(q));
    }
  }

  // ---------------------------------------------------------------------
  // Toolbar and modals
  // ---------------------------------------------------------------------

  datatype Toolbar = Toolbar(deleteDisabled: bool, mergeShown: bool, mergeDisabled: bool, clearDisabled: bool)

  /**
   The toolbar for `selectedCount` selected rows. The delete button is
   disabled through `!selectedRows.length > 0`, which compares a boolean with
   0: it is disabled exactly when nothing is selected.
   */
  function ToolbarFor(selectedCount: nat, showMerge: bool): (t: Toolbar)
    ensures t.deleteDisabled <==> selectedCount == 0
    ensures t.mergeDisabled <==> selectedCount < 2
    ensures t.clearDisabled <==> selectedCount == 0
    ensures t.mergeShown == showMerge
    ensures !t.mergeDisabled ==> !t.deleteDisabled
  {
    Toolbar(
      BoolToNumber(NotNumber(selectedCount)) > 0,
      showMerge,
      selectedCount < 2,
      selectedCount == 0)
  }

  datatype ListState = ListState(query: Query, url: Params, showDeleteModal: bool, showMergeModal: bool)

  datatype ListEvent =
    | Search(text: string)
    | Sort(column: SortBy)
    | ChangePage(page: int)
    | ClickDelete
    | ClickMerge
    | AcceptDelete
    | CloseDelete
    | AcceptMerge
    | CloseMerge

  /** Which URL effect the controller runs: the one in the code, or the corrected one. */
  datatype UrlEffect = AsWritten | Corrected

  function WriteUrl(effect: UrlEffect, q: Query, u: Params): Params {
    match effect
    case AsWritten => SyncUrlAsWritten(q, u)
    case Corrected => SyncUrl(q, u)
  }

  /**
   Mounting: the state is read from the URL and the URL effect runs once.
   Either effect leaves a URL that reads back as the state, since a search
   text read from the URL is already in it.
   */
  function Mount(u: Params, effect: UrlEffect): (s: ListState)
    ensures ReadQuery(s.url) == s.query
    ensures s.query == ReadQuery(u)
    ensures !s.showDeleteModal && !s.showMergeModal
  {
    var q := ReadQuery(u);
    SyncAfterRead(u);
    ListState(q, WriteUrl(effect, q, u), false, false)
  }

  /** The URL is a faithful snapshot of the query state. */
  predicate Faithful(s: ListState) {
    ReadQuery(s.url) == s.query
  }

  /**
   One handler, followed by the URL effect when the query changed. Search and
   sort go back to page 1; a page change touches only the page; a disabled
   button does nothing; accepting or closing a modal only closes it.
   */
  function Step(s: ListState, e: ListEvent, selectedCount: nat, showMerge: bool, effect: UrlEffect): (r: ListState)
    ensures e.Search? ==> r.query == Query(e.text, s.query.sortBy, 1)
    ensures e.Sort? ==> r.query == Query(s.query.searchText, e.column, 1)
    ensures e.ChangePage? ==>
      (r.query.searchText == s.query.searchText && r.query.sortBy == s.query.sortBy && r.query.page == e.page)
    ensures e.ClickDelete? ==> r == s.(showDeleteModal := selectedCount > 0 || s.showDeleteModal)
    ensures e.ClickMerge? ==> r == s.(showMergeModal := (showMerge && selectedCount >= 2) || s.showMergeModal)
    ensures (e.AcceptDelete? || e.CloseDelete?) ==> r == s.(showDeleteModal := false)
    ensures (e.AcceptMerge? || e.CloseMerge?) ==> r == s.(showMergeModal := false)
    ensures (e.Search? || e.Sort? || e.ChangePage?) ==>
      r.showDeleteModal == s.showDeleteModal && r.showMergeModal == s.showMergeModal
    ensures forall k :: !IsListKey(k) ==> Select(r.url, k) == Select(s.url, k)
  {
    var toolbar := ToolbarFor(selectedCount, showMerge);
    match e
    case Search(text) =>
      var q := Query(text, s.query.sortBy, 1);
      s.(query := q, url := WriteUrl(effect, q, s.url))
    case Sort(column) =>
      var q := Query(s.query.searchText, column, 1);
      s.(query := q, url := WriteUrl(effect, q, s.url))
    case ChangePage(page) =>
      var q := s.query.(page := page);
      s.(query := q, url := WriteUrl(effect, q, s.url))
    case ClickDelete => if toolbar.deleteDisabled then s else s.(showDeleteModal := true)
    case ClickMerge => if !toolbar.mergeShown || toolbar.mergeDisabled then s else s.(showMergeModal := true)
    case AcceptDelete => s.(showDeleteModal := false)
    case CloseDelete => s.(showDeleteModal := false)
    case AcceptMerge => s.(showMergeModal := false)
    case CloseMerge => s.(showMergeModal := false)
  }

  /** Events the pagination and the sortable headers can produce: a page other than 0, a named column and order. */
  predicate WellFormedEvent(e: ListEvent) {
    (e.ChangePage? ==> e.page != 0) && (e.Sort? ==> e.column.path != "" && e.column.order != "")
  }

  /** With the corrected effect, every handler keeps the URL a faithful snapshot of the state. */
  lemma StepKeepsFaithful(s: ListState, e: ListEvent, selectedCount: nat, showMerge: bool)
    requires WellFormedEvent(e)
    ensures Faithful(s) ==> Faithful(Step(s, e, selectedCount, showMerge, Corrected))
  {
    var r := Step(s, e, selectedCount, showMerge, Corrected);
    if Faithful(s) && (e.Search? || e.Sort? || e.ChangePage?) {
      ReadAfterSync(r.query, s.url);
    }
  }

  /** A whole session of events, from mount. */
  function Run(s: ListState, events: seq<ListEvent>, selectedCount: nat, showMerge: bool, effect: UrlEffect): ListState
    decreases |events|
  {
    if |events| == 0 then s
    else Run(Step(s, events[0], selectedCount, showMerge, effect), events[1..], selectedCount, showMerge, effect)
  }

  lemma {:induction false} RunKeepsFaithful(s: ListState, events: seq<ListEvent>, selectedCount: nat, showMerge: bool)
    requires forall i :: 0 <= i < |events| ==> WellFormedEvent(events[i])
    ensures Faithful(s) ==> Faithful(Run(s, events, selectedCount, showMerge, Corrected))
    decreases |events|
  {
    if |events| > 0 {
      StepKeepsFaithful(s, events[0], selectedCount, showMerge);
      RunKeepsFaithful(Step(s, events[0], selectedCount, showMerge, Corrected), events[1..], selectedCount, showMerge);
    }
  }

  /** With the corrected effect, from mount on, whatever the user does, reading the URL gives the controller's state. */
  lemma SessionStaysFaithful(u: Params, events: seq<ListEvent>, selectedCount: nat, showMerge: bool)
    requires forall i :: 0 <= i < |events| ==> WellFormedEvent(events[i])
    ensures var s := Run(Mount(u, Corrected), events, selectedCount, showMerge, Corrected);
      ReadQuery(s.url) == s.query
  {
    RunKeepsFaithful(Mount(u, Corrected), events, selectedCount, showMerge);
  }

  /**
   What the as-written effect keeps: the URL reads back as the state, except
   that while the search text is empty the URL may still hold an old search.
   */
  predicate FaithfulButClearedSearch(s: ListState) {
    var read := ReadQuery(s.url);
    read.(searchText := s.query.searchText) == s.query
    && (s.query.searchText != "" ==> read.searchText == s.query.searchText)
  }

  /** With the effect as written, every handler keeps the URL faithful up to a cleared search. */
  lemma StepKeepsFaithfulButClearedSearch(s: ListState, e: ListEvent, selectedCount: nat, showMerge: bool)
    requires WellFormedEvent(e)
    ensures FaithfulButClearedSearch(s) ==> FaithfulButClearedSearch(Step(s, e, selectedCount, showMerge, AsWritten))
  {
    var r := Step(s, e, selectedCount, showMerge, AsWritten);
    if FaithfulButClearedSearch(s) && (e.Search? || e.Sort? || e.ChangePage?) {
      assert WellFormed(ReadQuery(s.url));
      ReadAfterSyncAsWritten(r.query, s.url);
    }
  }

  lemma {:induction false} RunKeepsFaithfulButClearedSearch(s: ListState, events: seq<ListEvent>, selectedCount: nat, showMerge: bool)
    requires forall i :: 0 <= i < |events| ==> WellFormedEvent(events[i])
    ensures FaithfulButClearedSearch(s) ==> FaithfulButClearedSearch(Run(s, events, selectedCount, showMerge, AsWritten))
    decreases |events|
  {
    if |events| > 0 {
      StepKeepsFaithfulButClearedSearch(s, events[0], selectedCount, showMerge);
      RunKeepsFaithfulButClearedSearch(Step(s, events[0], selectedCount, showMerge, AsWritten), events[1..], selectedCount, showMerge);
    }
  }

  /**
   With the effect as written, from mount on, reading the URL gives the
   controller's sort, order and page, and its search text whenever that is
   non-empty.
   */
  lemma SessionAsWritten(u: Params, events: seq<ListEvent>, selectedCount: nat, showMerge: bool)
    requires forall i :: 0 <= i < |events| ==> WellFormedEvent(events[i])
    ensures var s := Run(Mount(u, AsWritten), events, selectedCount, showMerge, AsWritten);
      ReadQuery(s.url).(searchText := s.query.searchText) == s.query
      && (s.query.searchText != "" ==> ReadQuery(s.url).searchText == s.query.searchText)
  {
    RunKeepsFaithfulButClearedSearch(Mount(u, AsWritten), events, selectedCount, showMerge);
  }

  /**
   With the effect as written, clearing a search while the URL shows a
   non-empty one, as a faithful URL does for a non-empty search, breaks the
   snapshot: the URL still reads back the old search text.
   */
  lemma ClearingSearchLosesSnapshot(s: ListState, selectedCount: nat, showMerge: bool)
    requires s.query.searchText != "" && Get(s.url, "search") == Some(s.query.searchText)
    ensures var r := Step(s, Search(""), selectedCount, showMerge, AsWritten);
      !Faithful(r) && ReadQuery(r.url).searchText == s.query.searchText
  {
    var r := Step(s, Search(""), selectedCount, showMerge, AsWritten);
    SyncUrlAsWrittenKeepsClearedSearch(r.query, s.url, s.query.searchText);
  }

  /** A faithful URL with a non-empty search text shows that text under `search`. */
  lemma FaithfulShowsSearch(s: ListState)
    requires Faithful(s) && s.query.searchText != ""
    ensures Get(s.url, "search") == Some(s.query.searchText)
  {
  }

  // ---------------------------------------------------------------------
  // The table-data pipeline
  // ---------------------------------------------------------------------

  /** A field value of a row: only strings and numbers take part in the search. */
  datatype Value = Str(s: string) | Num(n: int) | Other

  /** A row, as `Object.values` lists its field values. */
  type Item = seq<Value>

  /** The text a field contributes to the search string. */
  function FieldText(v: Value): string {
    match v
    case Str(s) => s
    case Num(n) => IntToString(n)
    case Other => ""
  }

  /** The string and number fields of a row, stringified and joined with "". */
  function SearchableText(item: Item): string {
    if |item| == 0 then "" else FieldText(item[0]) + SearchableText(item[1..])
  }

  /** Every string field of a row can be found in its searchable text. */
  lemma {:induction false} StringFieldIsSearchable(item: Item, i: nat)
    requires i < |item| && item[i].Str?
    ensures exists k :: OccursAt(item[i].s, SearchableText(item), k)
    decreases |item|
  {
    var head := FieldText(item[0]);
    var rest := SearchableText(item[1..]);
    assert SearchableText(item) == head + rest;
    if i == 0 {
      OccursAtStart(head, rest);
    } else {
      StringFieldIsSearchable(item[1..], i - 1);
      var k :| OccursAt(item[i].s, rest, k);
      OccursAfter(item[i].s, head, rest, k);
    }
  }

  /** The search filter: the lower-cased search text occurs in the lower-cased searchable text. */
  predicate MatchesSearch(item: Item, searchText: string, lower: string -> string) {
    Includes(lower(SearchableText(item)), lower(searchText))
  }

  /** `a` can be obtained from `b` by leaving elements out. */
  ghost predicate IsSubsequence<T>(a: seq<T>, b: seq<T>)
    decreases |b|
  {
    if |a| == 0 then true
    else if |b| == 0 then false
    else (a[0] == b[0] && IsSubsequence(a[1..], b[1..])) || IsSubsequence(a, b[1..])
  }

  /** `items.filter(filterDataFromSearchInput)`: exactly the matching rows, in their order. */
  function FilterBySearch(items: seq<Item>, searchText: string, lower: string -> string): (r: seq<Item>)
    ensures IsSubsequence(r, items)
    ensures forall x :: x in r <==> x in items && MatchesSearch(x, searchText, lower)
    ensures |r| <= |items|
    ensures (forall i :: 0 <= i < |items| ==> MatchesSearch(items[i], searchText, lower)) ==> r == items
    ensures forall x :: multiset(r)[x] == if MatchesSearch(x, searchText, lower) then multiset(items)[x] else 0
  {
    if |items| == 0 then []
    else
      var rest := FilterBySearch(items[1..], searchText, lower);
      var r := if MatchesSearch(items[0], searchText, lower) then [items[0]] + rest else rest;
      SearchCountsStep(items, rest, r, searchText, lower);
      r
  }

  /**
   One step of the search filter: if `rest` holds each matching row of the
   tail as often as the tail does, and no other row, then `r`, which is
   `rest` with the head put back when it matches, does the same for the
   whole sequence.
   */
  lemma SearchCountsStep(items: seq<Item>, rest: seq<Item>, r: seq<Item>, searchText: string, lower: string -> string)
    requires |items| > 0
    requires forall x :: multiset(rest)[x] == if MatchesSearch(x, searchText, lower) then multiset(items[1..])[x] else 0
    requires r == if MatchesSearch(items[0], searchText, lower) then [items[0]] + rest else rest
    ensures items == [items[0]] + items[1..]
    ensures forall x :: multiset(r)[x] == if MatchesSearch(x, searchText, lower) then multiset(items)[x] else 0
  {
    assert items == [items[0]] + items[1..];
    assert multiset(items) == multiset{items[0]} + multiset(items[1..]);
    if MatchesSearch(items[0], searchText, lower) {
      assert multiset(r) == multiset{items[0]} + multiset(rest);
    }
  }

  /** The rows left after the search: all of them when the search text is empty. */
  function Filtered(data: seq<Item>, searchText: string, lower: string -> string): seq<Item> {
    if searchText != "" then FilterBySearch(data, searchText, lower) else data
  }

  /** Where page `pageNumber` starts: `(pageNumber - 1) * sizeOfPage`. */
  function PageStart(pageNumber: int, sizeOfPage: nat): (start: int)
    ensures pageNumber >= 1 ==> start >= 0
    ensures pageNumber == 0 ==> start == -(sizeOfPage as int)
    ensures pageNumber < 0 ==> start + sizeOfPage <= -(sizeOfPage as int)
  {
    (pageNumber - 1) * sizeOfPage
  }

  lemma PageStartNext(pageNumber: int, sizeOfPage: nat)
    ensures PageStart(pageNumber + 1, sizeOfPage) == PageStart(pageNumber, sizeOfPage) + sizeOfPage
  {
  }

  /**
   A span of `size` elements from `start`: from a non-negative start it holds
   the elements left there, up to `size`; when it ends before 0 both bounds
   count from the end.
   */
  lemma SliceOfSpan<T>(s: seq<T>, start: int, size: nat)
    ensures 0 <= start ==>
      |Slice(s, start, start + size)| == if start >= |s| then 0 else if start + size <= |s| then size else |s| - start
    ensures start + size < 0 ==> (
      var from, to := |s| + start, |s| + start + size;
      Slice(s, start, start + size) == s[if from < 0 then 0 else from..if to < 0 then 0 else to])
  {
    SliceFromEnd(s, start, start + size);
  }

  /** `paginate(items, pageNumber, sizeOfPage)`: `items.slice(start, start + sizeOfPage)` from the page's start. */
  function Paginate<T>(items: seq<T>, pageNumber: int, sizeOfPage: nat): (r: seq<T>)
    ensures |r| <= sizeOfPage
    ensures exists k :: SegmentAt(r, items, k)
    ensures pageNumber >= 1 ==> forall i :: 0 <= i < |r| ==>
      PageStart(pageNumber, sizeOfPage) + i < |items| && r[i] == items[PageStart(pageNumber, sizeOfPage) + i]
    ensures pageNumber >= 1 && PageStart(pageNumber, sizeOfPage) >= |items| ==> r == []
    ensures pageNumber >= 1 && PageStart(pageNumber, sizeOfPage) + sizeOfPage <= |items| ==> |r| == sizeOfPage
    ensures pageNumber == 0 ==> r == []
    ensures pageNumber >= 1 ==> (
      var start := PageStart(pageNumber, sizeOfPage);
      |r| == if start >= |items| then 0 else if start + sizeOfPage <= |items| then sizeOfPage else |items| - start)
    ensures pageNumber < 0 && sizeOfPage > 0 ==> (
      var from, to := |items| + PageStart(pageNumber, sizeOfPage), |items| + PageStart(pageNumber, sizeOfPage) + sizeOfPage;
      r == items[if from < 0 then 0 else from..if to < 0 then 0 else to])
  {
    var start := PageStart(pageNumber, sizeOfPage);
    SliceOfSpan(items, start, sizeOfPage);
    Slice(items, start, start + sizeOfPage)
  }

  /** The first `n` pages, one after the other. */
  function FirstPages<T>(items: seq<T>, sizeOfPage: nat, n: nat): seq<T> {
    if n == 0 then [] else FirstPages(items, sizeOfPage, n - 1) + Paginate(items, n, sizeOfPage)
  }

  /** Page `n` is the block of rows from its start to the next page's start, cut off at the end. */
  lemma PageIsBlock<T>(items: seq<T>, n: int, sizeOfPage: nat)
    requires n >= 1
    ensures var lo, hi := PageStart(n, sizeOfPage), PageStart(n + 1, sizeOfPage);
      0 <= lo <= hi && (lo < |items| ==> Paginate(items, n, sizeOfPage) == items[lo..if hi <= |items| then hi else |items|])
      && (lo >= |items| ==> Paginate(items, n, sizeOfPage) == [])
  {
    var lo := PageStart(n, sizeOfPage);
    PageStartNext(n, sizeOfPage);
    SliceWithin(items, lo, lo + sizeOfPage);
  }

  /**
   Pages 1..n are consecutive blocks: together they are the rows before the
   start of page n + 1, so every row is on exactly one page.
   */
  lemma {:induction false} FirstPagesArePrefix<T>(items: seq<T>, sizeOfPage: nat, n: nat)
    ensures var end := PageStart(n + 1, sizeOfPage);
      FirstPages(items, sizeOfPage, n) == items[..if end <= |items| then end else |items|]
  {
    if n > 0 {
      var lo, hi := PageStart(n, sizeOfPage), PageStart(n + 1, sizeOfPage);
      FirstPagesArePrefix(items, sizeOfPage, n - 1);
      PageIsBlock(items, n, sizeOfPage);
      PrefixThenBlock(items, lo, hi, FirstPages(items, sizeOfPage, n - 1), Paginate(items, n, sizeOfPage));
    }
  }

  /** The rows before `lo`, followed by the block from `lo` to `hi`, are the rows before `hi`; all cut off at the end. */
  lemma PrefixThenBlock<T>(items: seq<T>, lo: int, hi: int, before: seq<T>, block: seq<T>)
    requires 0 <= lo <= hi
    requires before == items[..if lo <= |items| then lo else |items|]
    requires lo < |items| ==> block == items[lo..if hi <= |items| then hi else |items|]
    requires lo >= |items| ==> block == []
    ensures before + block == items[..if hi <= |items| then hi else |items|]
  {
    if lo < |items| {
      var end := if hi <= |items| then hi else |items|;
      assert items[..lo] + items[lo..end] == items[..end];
    } else {
      assert before + block == before;
    }
  }

  datatype TablePage = TablePage(rows: seq<Item>, length: nat)

  /** The filtered rows in display order: reversed when the order is "desc". */
  function InDisplayOrder(rows: seq<Item>, order: string): (r: seq<Item>)
    ensures |r| == |rows|
    ensures order != "desc" ==> r == rows
    ensures order == "desc" ==> forall i :: 0 <= i < |r| ==> r[i] == rows[|rows| - 1 - i]
  {
    if order == "desc" then Reverse(rows) else rows
  }

  /**
   `getTableData`: filter by the search text (not at all when it is empty),
   reverse when the order is "desc", cut out page `page` of `PageSize` rows.
   `length` counts the filtered rows, not the rows of the page.
   */
  function GetTableData(data: seq<Item>, q: Query, lower: string -> string): (r: TablePage)
    ensures r.length == |Filtered(data, q.searchText, lower)| && r.length <= |data|
    ensures q.searchText == "" ==> r.length == |data|
    ensures |r.rows| <= PageSize && |r.rows| <= r.length
    ensures q.page >= 1 ==> (
      var start := PageStart(q.page, PageSize);
      |r.rows| == if start >= r.length then 0 else if start + PageSize <= r.length then PageSize else r.length - start)
    ensures q.page >= 1 ==> forall i :: 0 <= i < |r.rows| ==>
      PageStart(q.page, PageSize) + i < r.length
      && r.rows[i] == InDisplayOrder(Filtered(data, q.searchText, lower), q.sortBy.order)[PageStart(q.page, PageSize) + i]
  {
    var filtered := Filtered(data, q.searchText, lower);
    var page := Paginate(InDisplayOrder(filtered, q.sortBy.order), q.page, PageSize);
    TablePage(page, |filtered|)
  }

  /** Every displayed row is a row of the data, and one that matches a non-empty search. */
  lemma TableRowsMatch(data: seq<Item>, q: Query, lower: string -> string)
    ensures forall x :: x in GetTableData(data, q, lower).rows ==>
      x in data && (q.searchText != "" ==> MatchesSearch(x, q.searchText, lower))
  {
    var filtered := Filtered(data, q.searchText, lower);
    var ordered := InDisplayOrder(filtered, q.sortBy.order);
    var page := GetTableData(data, q, lower).rows;
    assert page == Paginate(ordered, q.page, PageSize);
    var k :| SegmentAt(page, ordered, k);
    SegmentMembers(page, ordered, k);
    DisplayOrderMembers(filtered, q.sortBy.order);
    FilteredMembers(data, q.searchText, lower);
  }

  /** Putting rows in display order keeps every row. */
  lemma DisplayOrderMembers(rows: seq<Item>, order: string)
    ensures forall x :: x in InDisplayOrder(rows, order) ==> x in rows
  {
    var ordered := InDisplayOrder(rows, order);
    forall x | x in ordered
      ensures x in rows
    {
      var j :| 0 <= j < |ordered| && ordered[j] == x;
      if order == "desc" {
        assert rows[|rows| - 1 - j] == x;
      }
    }
  }

  /** The filtered rows are rows of the data, each matching a non-empty search. */
  lemma FilteredMembers(data: seq<Item>, searchText: string, lower: string -> string)
    ensures forall x :: x in Filtered(data, searchText, lower) ==>
      x in data && (searchText != "" ==> MatchesSearch(x, searchText, lower))
  {
  }
}

=== FILE: playlist_list.dfy ===
/**
 The playlist list page: a filter/sort/page state that feeds the list fetch,
 a delete modal fed by the selection, and a deletion queue that an effect
 drains one playlist at a time before reloading the page.

 The effect is a step of its own (`EffectRun`), carrying the delete
 mutation's current `isSuccess`; when React schedules it is not modelled.
 `idFromUrl` (the IRI-to-id helper) is a parameter.
 */
module PlaylistList {
  import opened Js
  import ListView

  /** A playlist as the fetched list delivers it (the fields this page reads). */
  datatype Playlist = Playlist(id: string, title: string, published: bool)

  /** A selected row as `openDeleteModal` records it: the playlist's `@id` and title. */
  datatype PlaylistRow = PlaylistRow(id: string, title: string)

  /** What a step asks of the outside world. */
  datatype Action = NoAction | DeleteRequest(id: string) | Reload

  datatype PlaylistState = PlaylistState(
    selectedRows: seq<PlaylistRow>,
    isDeleting: bool,
    toDelete: seq<PlaylistRow>,
    showDeleteModal: bool,
    sortBy: Option<ListView.SortBy>,
    page: Option<int>,
    searchText: Option<string>,
    isPublished: Option<bool>)

  /** The page as first rendered: nothing selected, nothing queued, every filter undefined. */
  const Initial := PlaylistState([], false, [], false, None, None, None, None)

  datatype PlaylistEvent =
    | OpenDeleteModal(item: Option<Playlist>)
    | AcceptDelete
    | CloseDeleteModal
    | ClearSelectedRows
    | IsPublished(choice: string)
    | ChangeSort(sortBy: ListView.SortBy)
    | ChangePage(page: int)
    | Search(text: string)
    | EffectRun(isDeleteSuccess: bool)

  // ---------------------------------------------------------------------
  // The deletion effect
  // ---------------------------------------------------------------------

  /**
   One run of the deletion effect. A non-empty queue loses its head through
   `splice(0, 1)`, `isDeleting` is raised and one delete is issued for the
   head; an empty queue reloads the page when the last delete succeeded and
   does nothing otherwise.
   */
  function Effect(s: PlaylistState, isDeleteSuccess: bool, idFromUrl: string -> string): (r: (PlaylistState, Action))
    ensures r.1.DeleteRequest? <==> |s.toDelete| > 0
    ensures r.1.Reload? <==> |s.toDelete| == 0 && isDeleteSuccess
    ensures |s.toDelete| > 0 ==>
      [s.toDelete[0]] + r.0.toDelete == s.toDelete && r.1.id == idFromUrl(s.toDelete[0].id)
    ensures |s.toDelete| == 0 ==> r.0 == s
    ensures r.0.isDeleting == (s.isDeleting || |s.toDelete| > 0)
    ensures r.0.(toDelete := s.toDelete, isDeleting := s.isDeleting) == s
  {
    if |s.toDelete| > 0 then
      var head := s.toDelete[0];
      (s.(isDeleting := true, toDelete := SpliceOne(s.toDelete, 0)), DeleteRequest(idFromUrl(head.id)))
    else if isDeleteSuccess then
      (s, Reload)
    else
      (s, NoAction)
  }

  // ---------------------------------------------------------------------
  // Handlers
  // ---------------------------------------------------------------------

  /**
   `openDeleteModal(item)`: with an item the selection becomes that one row,
   reduced to its `@id` and title; without one the selection stays. The
   modal opens either way.
   */
  function OpenDeleteModalFor(s: PlaylistState, item: Option<Playlist>): (r: PlaylistState)
    ensures r.showDeleteModal
    ensures item.Some? ==> r.selectedRows == [PlaylistRow(item.value.id, item.value.title)]
    ensures item.None? ==> r.selectedRows == s.selectedRows
    ensures r.(selectedRows := s.selectedRows, showDeleteModal := s.showDeleteModal) == s
  {
    var withSelection := if item.Some? then s.(selectedRows := [PlaylistRow(item.value.id, item.value.title)]) else s;
    withSelection.(showDeleteModal := true)
  }

  /**
   `handleDelete`: the selection, in its order, becomes the deletion queue
   (replacing whatever was queued); the selection is emptied and the modal
   closes.
   */
  function HandleDelete(s: PlaylistState): (r: PlaylistState)
    ensures r.toDelete == s.selectedRows
    ensures r.selectedRows == [] && !r.showDeleteModal
    ensures r.isDeleting == s.isDeleting
    ensures r.(toDelete := s.toDelete, selectedRows := s.selectedRows, showDeleteModal := s.showDeleteModal) == s
  {
    s.(toDelete := s.selectedRows, selectedRows := [], showDeleteModal := false)
  }

  /**
   `onIsPublished`: the filter's choice as the fetch's `published` parameter.
   "all" removes the filter, "published" asks for published playlists, and
   every other value asks for unpublished ones.
   */
  function PublishedFilter(choice: string): (r: Option<bool>)
    ensures r.None? <==> choice == "all"
    ensures r == Some(true) <==> choice == "published"
    ensures r == Some(false) <==> choice != "all" && choice != "published"
  {
    if choice == "all" then None else Some(choice == "published")
  }

  /**
   Every event of the page, with what it asks of the outside world. A row's
   delete button is disabled while rows are selected, but the step accepts
   `OpenDeleteModal` in any state, so the lemmas over runs cover more event
   sequences than the page lets through.
   */
  function Step(s: PlaylistState, e: PlaylistEvent, idFromUrl: string -> string): (r: (PlaylistState, Action))
    ensures !e.EffectRun? ==> r.1 == NoAction && r.0.isDeleting == s.isDeleting
    ensures r.1.Reload? <==> e == EffectRun(true) && s.toDelete == []
    ensures r.1.DeleteRequest? <==> e.EffectRun? && |s.toDelete| > 0
    ensures s.isDeleting ==> r.0.isDeleting
    ensures !e.AcceptDelete? ==> |r.0.toDelete| <= |s.toDelete|
    ensures e.OpenDeleteModal? ==> r.0 == OpenDeleteModalFor(s, e.item)
    ensures e.AcceptDelete? ==> r.0 == HandleDelete(s)
    ensures e.CloseDeleteModal? ==> r.0 == s.(selectedRows := [], showDeleteModal := false)
    ensures e.ClearSelectedRows? ==> r.0 == s.(selectedRows := [])
    ensures e.IsPublished? ==> r.0 == s.(isPublished := PublishedFilter(e.choice))
    ensures e.ChangeSort? ==> r.0 == s.(sortBy := Some(e.sortBy))
    ensures e.ChangePage? ==> r.0 == s.(page := Some(e.page))
    ensures e.Search? ==> r.0 == s.(searchText := Some(e.text))
  {
    match e
    case OpenDeleteModal(item) => (OpenDeleteModalFor(s, item), NoAction)
    case AcceptDelete => (HandleDelete(s), NoAction)
    case CloseDeleteModal => (s.(selectedRows := [], showDeleteModal := false), NoAction)
    case ClearSelectedRows => (s.(selectedRows := []), NoAction)
    case IsPublished(choice) => (s.(isPublished := PublishedFilter(choice)), NoAction)
    case ChangeSort(sortBy) => (s.(sortBy := Some(sortBy)), NoAction)
    case ChangePage(page) => (s.(page := Some(page)), NoAction)
    case Search(text) => (s.(searchText := Some(text)), NoAction)
    case EffectRun(isDeleteSuccess) => Effect(s, isDeleteSuccess, idFromUrl)
  }

  /** The events applied in order, with the actions they asked for. */
  function Run(s: PlaylistState, events: seq<PlaylistEvent>, idFromUrl: string -> string): (r: (PlaylistState, seq<Action>))
    ensures |r.1| == |events|
    decreases |events|
  {
    if |events| == 0 then (s, [])
    else
      var (s1, a) := Step(s, events[0], idFromUrl);
      var (s2, rest) := Run(s1, events[1..], idFromUrl);
      (s2, [a] + rest)
  }

  /** Running `a` and then `b` is running `a + b`. */
  lemma {:induction false} RunConcat(s: PlaylistState, a: seq<PlaylistEvent>, b: seq<PlaylistEvent>, idFromUrl: string -> string)
    ensures var (s1, actions1) := Run(s, a, idFromUrl);
      var (s2, actions2) := Run(s1, b, idFromUrl);
      Run(s, a + b, idFromUrl) == (s2, actions1 + actions2)
    decreases |a|
  {
    if |a| == 0 {
      assert a + b == b;
      assert Run(s, a, idFromUrl) == (s, []);
      assert [] + Run(s, b, idFromUrl).1 == Run(s, b, idFromUrl).1;
    } else {
      var (s1, x) := Step(s, a[0], idFromUrl);
      assert (a + b)[0] == a[0];
      assert (a + b)[1..] == a[1..] + b;
      RunConcat(s1, a[1..], b, idFromUrl);
      var (s2, rest1) := Run(s1, a[1..], idFromUrl);
      var actions2 := Run(s2, b, idFromUrl).1;
      assert [x] + (rest1 + actions2) == ([x] + rest1) + actions2;
    }
  }

  /** A single event. */
  lemma RunOne(s: PlaylistState, e: PlaylistEvent, idFromUrl: string -> string)
    ensures Run(s, [e], idFromUrl) == (Step(s, e, idFromUrl).0, [Step(s, e, idFromUrl).1])
  {
    var (s1, a) := Step(s, e, idFromUrl);
    assert [e][1..] == [];
    assert Run(s1, [], idFromUrl) == (s1, []);
    assert [a] + [] == [a];
  }

  /** `isDeleting` is raised by the effect and never lowered by anything on this page. */
  lemma {:induction false} IsDeletingNeverReset(s: PlaylistState, events: seq<PlaylistEvent>, idFromUrl: string -> string)
    requires s.isDeleting
    ensures Run(s, events, idFromUrl).0.isDeleting
    decreases |events|
  {
    if |events| > 0 {
      IsDeletingNeverReset(Step(s, events[0], idFromUrl).0, events[1..], idFromUrl);
    }
  }

  /**
   A reload is asked for only by an effect run that saw a successful delete
   and found the queue already empty.
   */
  lemma {:induction false} ReloadOnlyOnEmptyQueue(s: PlaylistState, events: seq<PlaylistEvent>, idFromUrl: string -> string, i: nat)
    requires i < |events| && Run(s, events, idFromUrl).1[i] == Reload
    ensures events[i] == EffectRun(true)
    ensures Run(s, events[..i], idFromUrl).0.toDelete == []
    decreases i
  {
    var s1 := Step(s, events[0], idFromUrl).0;
    if i > 0 {
      assert Run(s1, events[1..], idFromUrl).1[i - 1] == Reload;
      ReloadOnlyOnEmptyQueue(s1, events[1..], idFromUrl, i - 1);
      assert events[..i][0] == events[0];
      assert events[..i][1..] == events[1..][..i - 1];
    }
  }

  // ---------------------------------------------------------------------
  // Draining the queue
  // ---------------------------------------------------------------------

  /** Effect runs, one per observed value of the mutation's `isSuccess`. */
  function EffectRuns(successes: seq<bool>): (r: seq<PlaylistEvent>)
    ensures |r| == |successes|
    ensures forall i :: 0 <= i < |r| ==> r[i] == EffectRun(successes[i])
  {
    seq(|successes|, i requires 0 <= i < |successes| => EffectRun(successes[i]))
  }

  /** The deletes issued for `rows`, one per row, in row order. */
  function DeleteRequests(rows: seq<PlaylistRow>, idFromUrl: string -> string): (r: seq<Action>)
    ensures |r| == |rows|
    ensures forall i :: 0 <= i < |rows| ==> r[i] == DeleteRequest(idFromUrl(rows[i].id))
  {
    if |rows| == 0 then [] else [DeleteRequest(idFromUrl(rows[0].id))] + DeleteRequests(rows[1..], idFromUrl)
  }

  /**
   `k` effect runs on a queue of at least `k` rows issue the deletes for the
   first `k` rows, first in, first out, and leave the rest queued in order;
   nothing but the queue and `isDeleting` changes.
   */
  lemma {:induction false} EffectsDeleteInQueueOrder(s: PlaylistState, successes: seq<bool>, idFromUrl: string -> string)
    requires |successes| <= |s.toDelete|
    ensures var (r, actions) := Run(s, EffectRuns(successes), idFromUrl);
      actions == DeleteRequests(s.toDelete[..|successes|], idFromUrl)
      && r.toDelete == s.toDelete[|successes|..]
      && r.(toDelete := s.toDelete, isDeleting := s.isDeleting) == s
      && r.isDeleting == (s.isDeleting || |successes| > 0)
    decreases |successes|
  {
    var n := |successes|;
    if n > 0 {
      var events := EffectRuns(successes);
      var (s1, a) := Effect(s, successes[0], idFromUrl);
      RunCons(s, events, idFromUrl);
      assert Step(s, events[0], idFromUrl) == (s1, a);
      assert events[1..] == EffectRuns(successes[1..]);
      EffectsDeleteInQueueOrder(s1, successes[1..], idFromUrl);
      QueueAfterHead(s.toDelete, n);
    }
  }

  /** Running a non-empty sequence of events is its first step followed by the rest. */
  lemma RunCons(s: PlaylistState, events: seq<PlaylistEvent>, idFromUrl: string -> string)
    requires |events| > 0
    ensures var (s1, a) := Step(s, events[0], idFromUrl);
      Run(s, events, idFromUrl) == (Run(s1, events[1..], idFromUrl).0, [a] + Run(s1, events[1..], idFromUrl).1)
  {
  }

  /** The first `n` rows of a queue without its head are rows 1 to `n` of the queue, and so are the rest. */
  lemma QueueAfterHead(q: seq<PlaylistRow>, n: nat)
    requires 0 < n <= |q|
    ensures q[1..][..n - 1] == q[..n][1..] && q[1..][n - 1..] == q[n..] && q[..n][0] == q[0]
  {
  }

  /** The filter handlers: `onIsPublished`, `onChangeSort`, `onChangePage` and `onSearch`. */
  predicate IsFilterEvent(e: PlaylistEvent) {
    e.IsPublished? || e.ChangeSort? || e.ChangePage? || e.Search?
  }

  /** How many of the events are effect runs. */
  function EffectCount(events: seq<PlaylistEvent>): (n: nat)
    ensures n <= |events|
  {
    if |events| == 0 then 0 else (if events[0].EffectRun? then 1 else 0) + EffectCount(events[1..])
  }

  /** The actions that ask something of the outside world, in order. */
  function Requests(actions: seq<Action>): (r: seq<Action>)
    ensures |r| <= |actions|
    ensures forall a :: a in r ==> a in actions && a != NoAction
  {
    if |actions| == 0 then []
    else if actions[0] == NoAction then Requests(actions[1..])
    else [actions[0]] + Requests(actions[1..])
  }

  /**
   Filter changes falling between effect runs do not disturb the queue: with
   `k` effect runs among them, on a queue of at least `k` rows, the requests
   issued are the deletes of the first `k` rows, first in, first out; the
   rest stay queued in order, and the selection and the modal are untouched.
   */
  lemma {:induction false} InterleavedDeletesInQueueOrder(s: PlaylistState, events: seq<PlaylistEvent>, idFromUrl: string -> string)
    requires forall i :: 0 <= i < |events| ==> events[i].EffectRun? || IsFilterEvent(events[i])
    requires EffectCount(events) <= |s.toDelete|
    ensures var (r, actions) := Run(s, events, idFromUrl);
      var k := EffectCount(events);
      Requests(actions) == DeleteRequests(s.toDelete[..k], idFromUrl)
      && r.toDelete == s.toDelete[k..]
      && r.selectedRows == s.selectedRows && r.showDeleteModal == s.showDeleteModal
    decreases |events|
  {
    if |events| > 0 {
      var e, k := events[0], EffectCount(events);
      var (s1, a) := Step(s, e, idFromUrl);
      FilterOrEffectStep(s, e, idFromUrl);
      assert events[1..][0..] == events[1..] && forall i :: 0 <= i < |events[1..]| ==> events[1..][i] == events[i + 1];
      assert k == (if e.EffectRun? then 1 else 0) + EffectCount(events[1..]);
      RunCons(s, events, idFromUrl);
      InterleavedDeletesInQueueOrder(s1, events[1..], idFromUrl);
      var (r, rest) := Run(s1, events[1..], idFromUrl);
      assert Run(s, events, idFromUrl) == (r, [a] + rest);
      if e.EffectRun? {
        DeleteThenRest(s.toDelete, k, a, rest, idFromUrl);
      } else {
        assert ([a] + rest)[1..] == rest;
      }
    }
  }

  /** One effect run or filter change: the queue loses at most its head, and the selection and modal stay. */
  lemma FilterOrEffectStep(s: PlaylistState, e: PlaylistEvent, idFromUrl: string -> string)
    requires e.EffectRun? || IsFilterEvent(e)
    ensures var (s1, a) := Step(s, e, idFromUrl);
      s1.selectedRows == s.selectedRows && s1.showDeleteModal == s.showDeleteModal
      && (e.EffectRun? && |s.toDelete| > 0 ==>
            s1.toDelete == s.toDelete[1..] && a == DeleteRequest(idFromUrl(s.toDelete[0].id)))
      && (!e.EffectRun? ==> s1.toDelete == s.toDelete && a == NoAction)
  {
  }

  /** The delete of the queue's head, then the deletes of the next `k - 1` rows, are the deletes of its first `k` rows. */
  lemma DeleteThenRest(q: seq<PlaylistRow>, k: nat, a: Action, rest: seq<Action>, idFromUrl: string -> string)
    requires 0 < k <= |q|
    requires a == DeleteRequest(idFromUrl(q[0].id))
    requires Requests(rest) == DeleteRequests(q[1..][..k - 1], idFromUrl)
    ensures Requests([a] + rest) == DeleteRequests(q[..k], idFromUrl)
    ensures q[1..][k - 1..] == q[k..]
  {
    QueueAfterHead(q, k);
    assert ([a] + rest)[0] == a && ([a] + rest)[1..] == rest;
  }

  /** With the queue empty, an effect run changes nothing and reloads exactly on success. */
  lemma EffectOnEmptyQueue(s: PlaylistState, success: bool, idFromUrl: string -> string)
    requires s.toDelete == []
    ensures Run(s, [EffectRun(success)], idFromUrl) == (s, [if success then Reload else NoAction])
  {
    RunOne(s, EffectRun(success), idFromUrl);
  }

  /**
   Letting the effect run once per queued playlist and once more after the
   last successful delete issues every queued delete, in queue order, and
   then a reload; the selection and the modal are untouched.
   */
  lemma DrainThenReload(s: PlaylistState, successes: seq<bool>, idFromUrl: string -> string)
    requires |successes| == |s.toDelete| + 1 && successes[|s.toDelete|]
    ensures var (r, actions) := Run(s, EffectRuns(successes), idFromUrl);
      actions == DeleteRequests(s.toDelete, idFromUrl) + [Reload]
      && r.toDelete == [] && r.selectedRows == s.selectedRows && r.showDeleteModal == s.showDeleteModal
  {
    var n := |s.toDelete|;
    assert EffectRuns(successes) == EffectRuns(successes[..n]) + [EffectRun(true)];
    RunConcat(s, EffectRuns(successes[..n]), [EffectRun(true)], idFromUrl);
    EffectsDeleteInQueueOrder(s, successes[..n], idFromUrl);
    var s2 := Run(s, EffectRuns(successes[..n]), idFromUrl).0;
    assert s.toDelete[..n] == s.toDelete;
    EffectOnEmptyQueue(s2, true, idFromUrl);
  }

  /**
   Confirming the modal and then letting the effect run once per selected
   playlist plus once more after the last successful delete issues exactly
   one delete per selected playlist, in selection order, and then a reload.
   */
  lemma ConfirmThenDrain(s: PlaylistState, successes: seq<bool>, idFromUrl: string -> string)
    requires |successes| == |s.selectedRows| + 1 && successes[|s.selectedRows|]
    ensures var (r, actions) := Run(s, [AcceptDelete] + EffectRuns(successes), idFromUrl);
      actions == [NoAction] + DeleteRequests(s.selectedRows, idFromUrl) + [Reload]
      && r.toDelete == [] && r.selectedRows == [] && !r.showDeleteModal
  {
    var s1 := HandleDelete(s);
    RunOne(s, AcceptDelete, idFromUrl);
    RunConcat(s, [AcceptDelete], EffectRuns(successes), idFromUrl);
    DrainThenReload(s1, successes, idFromUrl);
    var actions := DeleteRequests(s.selectedRows, idFromUrl);
    assert [NoAction] + (actions + [Reload]) == [NoAction] + actions + [Reload];
  }

  // ---------------------------------------------------------------------
  // What the page hands to the list and to the fetch
  // ---------------------------------------------------------------------

  /** The query of the playlists fetch; `None` is an undefined parameter. */
  datatype FetchQuery = FetchQuery(
    page: Option<int>,
    orderBy: Option<string>,
    order: Option<string>,
    title: Option<string>,
    published: Option<bool>)

  /** `{ page, orderBy: sortBy?.path, order: sortBy?.order, title: searchText, published: isPublished }`. */
  function FetchParams(s: PlaylistState): (f: FetchQuery)
    ensures f.page == s.page && f.title == s.searchText && f.published == s.isPublished
    ensures f.orderBy.Some? <==> s.sortBy.Some?
    ensures f.order.Some? <==> s.sortBy.Some?
    ensures s.sortBy.Some? ==> f.orderBy.value == s.sortBy.value.path && f.order.value == s.sortBy.value.order
  {
    var orderBy := if s.sortBy.Some? then Some(s.sortBy.value.path) else None;
    var order := if s.sortBy.Some? then Some(s.sortBy.value.order) else None;
    FetchQuery(s.page, orderBy, order, s.searchText, s.isPublished)
  }

  /**
   Each filter handler moves exactly its own fetch parameter; the modal and
   queue handlers leave the fetch alone.
   */
  lemma FetchFollowsHandlers(s: PlaylistState, e: PlaylistEvent, idFromUrl: string -> string)
    ensures var f, g := FetchParams(s), FetchParams(Step(s, e, idFromUrl).0);
      match e
      case IsPublished(choice) => g == f.(published := PublishedFilter(choice))
      case ChangeSort(sortBy) => g == f.(orderBy := Some(sortBy.path), order := Some(sortBy.order))
      case ChangePage(page) => g == f.(page := Some(page))
      case Search(text) => g == f.(title := Some(text))
      case _ => g == f
  {
  }

  /**
   The `isLoading` prop the page hands to the list: `isLoading || isDeleting`.
   The list component does not read this prop.
   */
  function ListBusy(isLoading: bool, s: PlaylistState): bool {
    isLoading || s.isDeleting
  }

  /**
   Once the effect has issued a delete, the `isLoading` prop handed to the
   list stays true whatever happens next, since nothing lowers `isDeleting`.
   */
  lemma BusyAfterFirstDelete(s: PlaylistState, success: bool, events: seq<PlaylistEvent>, idFromUrl: string -> string, isLoading: bool)
    requires |s.toDelete| > 0
    ensures ListBusy(isLoading, Run(Effect(s, success, idFromUrl).0, events, idFromUrl).0)
  {
    IsDeletingNeverReset(Effect(s, success, idFromUrl).0, events, idFromUrl);
  }

  /** A row's own delete button is disabled while any row is selected. */
  function RowDeleteDisabled(s: PlaylistState): bool {
    |s.selectedRows| > 0
  }

  /** Opening the modal for a row disables the per-row delete buttons; closing or confirming enables them. */
  lemma RowDeleteAroundModal(s: PlaylistState, item: Playlist, idFromUrl: string -> string)
    ensures var shown := Step(s, OpenDeleteModal(Some(item)), idFromUrl).0;
      RowDeleteDisabled(shown)
      && !RowDeleteDisabled(Step(shown, CloseDeleteModal, idFromUrl).0)
      && !RowDeleteDisabled(Step(shown, AcceptDelete, idFromUrl).0)
  {
  }

  /** On first render every fetch parameter is undefined and the `isLoading` prop is the fetch's own flag. */
  lemma InitialFetch(isLoading: bool)
    ensures FetchParams(Initial) == FetchQuery(None, None, None, None, None)
    ensures ListBusy(isLoading, Initial) == isLoading
  {
  }
}

=== FILE: screen_list.dfy ===
/**
 The screen list page: a list/calendar view read from and written back to the
 `view` URL parameter, and a delete modal driven by the row selection.
 */
module ScreenList {
  import opened Js
  import opened UrlParams

  /** A selected screen as `openDeleteModal` records it. */
  datatype ScreenRow = ScreenRow(id: string, name: string)

  datatype ScreenState = ScreenState(
    view: string,
    url: Params,
    selectedRows: seq<ScreenRow>,
    showDeleteModal: bool)

  datatype ScreenEvent =
    | ToggleView
    | OpenDeleteModal(row: ScreenRow)
    | AcceptDelete
    | CloseModal
    | ClearSelectedRows

  /** The initial view: `get("view") ?? "list"`, so a present but empty parameter is kept. */
  function InitialView(u: Params): (view: string)
    ensures Get(u, "view").Some? ==> view == Get(u, "view").value
    ensures Get(u, "view").None? ==> view == "list"
  {
    Coalesce(Get(u, "view"), "list")
  }

  /** The URL effect: `delete("view")` then `append("view", view)`, every other pair kept in order. */
  function WriteView(u: Params, view: string): (r: Params)
    ensures Select(r, "view") == [("view", view)]
    ensures forall k :: k != "view" ==> Select(r, k) == Select(u, k)
  {
    SelectAfterPut(u, "view", view);
    Put(u, "view", view)
  }

  /** The page as first rendered, once the URL effect has run for the initial view. */
  function Mount(u: Params): (s: ScreenState)
    ensures s.selectedRows == [] && !s.showDeleteModal
  {
    var view := InitialView(u);
    ScreenState(view, WriteView(u, view), [], false)
  }

  /** The URL holds exactly one `view` pair, and it names the current view. */
  predicate ViewInUrl(s: ScreenState) {
    Select(s.url, "view") == [("view", s.view)]
  }

  /**
   The view the toggle button switches to: "list" shows a button to the
   calendar and "calendar" one back to the list; any other view shows no
   button at all.
   */
  function ToggleTarget(view: string): (r: Option<string>)
    ensures r.Some? <==> view == "list" || view == "calendar"
    ensures r.Some? ==> r.value != view && (r.value == "list" || r.value == "calendar")
  {
    if view == "list" then Some("calendar")
    else if view == "calendar" then Some("list")
    else None
  }

  /** Toggling twice comes back to where it started. */
  lemma ToggleTwice(view: string)
    requires view == "list" || view == "calendar"
    ensures ToggleTarget(ToggleTarget(view).value) == Some(view)
  {
  }

  /** The list is drawn with the chart exactly in the calendar view. */
  function WithChart(s: ScreenState): bool {
    s.view == "calendar"
  }

  /**
   A step of the page. Toggling, when a toggle button is shown, changes the
   view and rewrites the URL; with no button the event cannot happen and
   changes nothing. The modal handlers only touch the selection and the
   modal. A row's delete button is disabled while rows are selected, but the
   step accepts `OpenDeleteModal` in any state, so the lemmas over runs cover
   more event sequences than the page lets through.
   */
  function Step(s: ScreenState, e: ScreenEvent): (r: ScreenState)
    ensures e.ToggleView? && ToggleTarget(s.view).Some? ==> r.view == ToggleTarget(s.view).value
    ensures e.ToggleView? && ToggleTarget(s.view).None? ==> r == s
    ensures e.ToggleView? ==> r.selectedRows == s.selectedRows && r.showDeleteModal == s.showDeleteModal
    ensures !e.ToggleView? ==> r.view == s.view && r.url == s.url
    ensures forall k :: k != "view" ==> Select(r.url, k) == Select(s.url, k)
    ensures e.OpenDeleteModal? ==> r.selectedRows == [e.row] && r.showDeleteModal
    ensures (e.AcceptDelete? || e.CloseModal?) ==> r.selectedRows == [] && !r.showDeleteModal
    ensures e.ClearSelectedRows? ==> r.selectedRows == [] && r.showDeleteModal == s.showDeleteModal
  {
    match e
    case ToggleView =>
      var target := ToggleTarget(s.view);
      if target.Some? then s.(view := target.value, url := WriteView(s.url, target.value)) else s
    case OpenDeleteModal(row) => s.(selectedRows := [row], showDeleteModal := true)
    case AcceptDelete => s.(selectedRows := [], showDeleteModal := false)
    case CloseModal => s.(selectedRows := [], showDeleteModal := false)
    case ClearSelectedRows => s.(selectedRows := [])
  }

  /** The events applied in order. */
  function Run(s: ScreenState, events: seq<ScreenEvent>): ScreenState
    decreases |events|
  {
    if |events| == 0 then s else Run(Step(s, events[0]), events[1..])
  }

  /** Mounting leaves the URL naming the view the page shows, and reading it back gives that view. */
  lemma MountWritesView(u: Params)
    ensures ViewInUrl(Mount(u))
    ensures InitialView(Mount(u).url) == Mount(u).view
    ensures forall k :: k != "view" ==> Select(Mount(u).url, k) == Select(u, k)
  {
    GetIsFirstSelected(Mount(u).url, "view");
  }

  /**
   Whatever happens on the page, the URL keeps exactly one `view` pair
   naming the current view, and the pairs under every other key are those
   the page was opened with.
   */
  lemma {:induction false} RunKeepsViewInUrl(s: ScreenState, events: seq<ScreenEvent>, u: Params)
    requires ViewInUrl(s)
    requires forall k :: k != "view" ==> Select(s.url, k) == Select(u, k)
    ensures ViewInUrl(Run(s, events))
    ensures forall k :: k != "view" ==> Select(Run(s, events).url, k) == Select(u, k)
    decreases |events|
  {
    if |events| > 0 {
      RunKeepsViewInUrl(Step(s, events[0]), events[1..], u);
    }
  }

  /** Reloading the page at the URL it wrote shows the same view. */
  lemma ReloadKeepsView(s: ScreenState)
    requires ViewInUrl(s)
    ensures InitialView(s.url) == s.view
  {
    GetIsFirstSelected(s.url, "view");
  }

  /**
   From the list view, one toggle shows the calendar with the chart and a
   second one returns to the list without it; the URL follows each time.
   */
  lemma ToggleRoundTrip(s: ScreenState)
    requires s.view == "list"
    ensures var once := Step(s, ToggleView);
      once.view == "calendar" && WithChart(once) && ViewInUrl(once)
      && Step(once, ToggleView).view == "list" && !WithChart(Step(once, ToggleView)) && ViewInUrl(Step(once, ToggleView))
  {
  }

  /** A row's own delete button is disabled while any row is selected. */
  function RowDeleteDisabled(s: ScreenState): bool {
    |s.selectedRows| > 0
  }

  /**
   Opening the modal for a row selects just that row and disables the
   per-row delete buttons; accepting or closing the modal empties the
   selection and enables them again.
   */
  lemma ModalSelection(s: ScreenState, row: ScreenRow)
    ensures var shown := Step(s, OpenDeleteModal(row));
      RowDeleteDisabled(shown) && shown.selectedRows == [row]
      && !RowDeleteDisabled(Step(shown, AcceptDelete)) && !Step(shown, AcceptDelete).showDeleteModal
      && !RowDeleteDisabled(Step(shown, CloseModal)) && !Step(shown, CloseModal).showDeleteModal
  {
  }
}

=== FILE: select_groups_table.dfy ===
/**
 The group selection table of the screen forms: a dropdown that replaces the
 selected groups, a table with a remove button per group, and the change
 event that tells the form which group `@id`s are selected.
 */
module SelectGroupsTable {
  import opened Js

  /** A screen group as the table holds it: its IRI (`@id`) and its title. */
  datatype Group = Group(id: string, title: string)

  /** The event handed to the form's `handleChange`: the input's id and the selected `@id`s. */
  datatype ChangeEvent = ChangeEvent(id: string, value: seq<string>)

  /** `groups.map((item) => item["@id"])`. */
  function Ids(groups: seq<Group>): (r: seq<string>)
    ensures |r| == |groups|
    ensures forall i :: 0 <= i < |groups| ==> r[i] == groups[i].id
  {
    if |groups| == 0 then [] else [groups[0].id] + Ids(groups[1..])
  }

  /**
   `handleAdd`: the dropdown's new value becomes the selection, and the form
   is told the `@id` of every selected group, in order, under the dropdown's id.
   */
  function HandleAdd(targetId: string, value: seq<Group>): (r: (seq<Group>, ChangeEvent))
    ensures r.0 == value
    ensures r.1.id == targetId
    ensures |r.1.value| == |value| && forall i :: 0 <= i < |value| ==> r.1.value[i] == value[i].id
  {
    (value, ChangeEvent(targetId, Ids(value)))
  }

  /**
   `removeFromList`: on a copy of the selection, `splice` out the position
   that `indexOf` finds for the removed item's `@id`, then tell the form the
   remaining `@id`s under `name`. When no group has that `@id`, `indexOf`
   gives -1 and `splice(-1, 1)` drops the last group.
   */
  function RemoveFromList(selected: seq<Group>, removeItem: Group, name: string): (r: (seq<Group>, ChangeEvent))
    ensures r.1 == ChangeEvent(name, Ids(r.0))
    ensures removeItem.id in Ids(selected) ==> |r.0| == |selected| - 1
    ensures removeItem.id !in Ids(selected) && |selected| > 0 ==> r.0 == selected[..|selected| - 1]
    ensures selected == [] ==> r.0 == []
  {
    var index := IndexOf(Ids(selected), removeItem.id);
    var copy := SpliceOne(selected, index);
    (copy, ChangeEvent(name, Ids(copy)))
  }

  /**
   When some group carries the removed item's `@id`, the first such group
   goes and every other group stays, in order.
   */
  lemma RemoveFirstMatch(selected: seq<Group>, removeItem: Group, name: string, k: nat)
    requires k < |selected| && selected[k].id == removeItem.id
    requires forall j :: 0 <= j < k ==> selected[j].id != removeItem.id
    ensures RemoveFromList(selected, removeItem, name).0 == selected[..k] + selected[k + 1..]
  {
    var ids := Ids(selected);
    assert ids[k] == removeItem.id;
  }

  /** `@id`s are unique: no two positions hold groups with the same `@id`. */
  predicate DistinctIds(groups: seq<Group>) {
    forall i, j :: 0 <= i < j < |groups| ==> groups[i].id != groups[j].id
  }

  /**
   With unique `@id`s, removing a group that is in the table removes exactly
   that group: what is left is the selection minus that one group, and its
   `@id` is gone from the event.
   */
  lemma RemoveListedGroup(selected: seq<Group>, removeItem: Group, name: string)
    requires DistinctIds(selected) && removeItem in selected
    ensures multiset(RemoveFromList(selected, removeItem, name).0) + multiset{removeItem} == multiset(selected)
    ensures removeItem.id !in RemoveFromList(selected, removeItem, name).1.value
  {
    var k :| 0 <= k < |selected| && selected[k] == removeItem;
    var before, after := selected[..k], selected[k + 1..];
    var r := RemoveFromList(selected, removeItem, name);
    NoEarlierId(selected, k);
    RemoveFirstMatch(selected, removeItem, name, k);
    assert r.0 == before + after;
    assert selected == before + [removeItem] + after;
    IdsNotPresent(selected, k);
  }

  /** With unique `@id`s, no group before position `k` has the `@id` of the group at `k`. */
  lemma NoEarlierId(groups: seq<Group>, k: nat)
    requires DistinctIds(groups) && k < |groups|
    ensures forall j :: 0 <= j < k ==> groups[j].id != groups[k].id
  {
  }

  /** With unique `@id`s, the `@id` at position `k` occurs nowhere else. */
  lemma IdsNotPresent(groups: seq<Group>, k: nat)
    requires DistinctIds(groups) && k < |groups|
    ensures groups[k].id !in Ids(groups[..k] + groups[k + 1..])
  {
    var rest := groups[..k] + groups[k + 1..];
    var ids := Ids(rest);
    forall j | 0 <= j < |ids|
      ensures ids[j] != groups[k].id
    {
      if j < k {
        assert rest[j] == groups[j];
      } else {
        assert rest[j] == groups[j + 1];
      }
    }
  }

  /** What changes the table's own state, `selectedData`: the prop, the dropdown and a remove button. */
  datatype TableEvent =
    | PropChanged(selectedGroups: seq<Group>)
    | Add(targetId: string, value: seq<Group>)
    | Remove(removeItem: Group)

  /**
   A step of the table. A new `selectedGroups` prop replaces the selection
   without telling the form; adding and removing tell the form.
   */
  function Step(selectedData: seq<Group>, name: string, e: TableEvent): (r: (seq<Group>, Option<ChangeEvent>))
    ensures e.PropChanged? ==> r == (e.selectedGroups, None)
    ensures !e.PropChanged? ==> r.1.Some? && r.1.value.value == Ids(r.0)
    ensures e.Add? ==> r == (e.value, Some(ChangeEvent(e.targetId, Ids(e.value))))
    ensures e.Remove? ==> r.0 == RemoveFromList(selectedData, e.removeItem, name).0
    ensures |r.0| <= |selectedData| || e.Add? || e.PropChanged?
  {
    match e
    case PropChanged(groups) => (groups, None)
    case Add(targetId, value) =>
      var (data, event) := HandleAdd(targetId, value);
      (data, Some(event))
    case Remove(item) =>
      var (data, event) := RemoveFromList(selectedData, item, name);
      (data, Some(event))
  }
}

=== FILE: url_params.dfy ===
/**
 The browser's `URLSearchParams`, as the list components use it: an ordered
 list of key/value pairs in which a key may repeat. `get` returns the first
 value under a key, `delete` drops every pair under a key and `append` adds a
 pair at the end. Serialising to and parsing from the query string is taken
 to be lossless and is not modelled.
 */
module UrlParams {
  import opened Js

  type Params = seq<(string, string)>

  /** `params.get(key)`: the value of the first pair stored under `key`, or `null`. */
  function Get(p: Params, key: string): (r: Option<string>)
    ensures r.None? <==> forall i :: 0 <= i < |p| ==> p[i].0 != key
  {
    if |p| == 0 then None
    else if p[0].0 == key then Some(p[0].1)
    else Get(p[1..], key)
  }

  /** The pairs stored under `key`, in their order. */
  function Select(p: Params, key: string): Params {
    if |p| == 0 then []
    else (if p[0].0 == key then [p[0]] else []) + Select(p[1..], key)
  }

  /** `params.delete(key)`: every pair under `key` goes, the others keep their order. */
  function Delete(p: Params, key: string): (r: Params)
    ensures |r| <= |p|
  {
    if |p| == 0 then []
    else (if p[0].0 == key then [] else [p[0]]) + Delete(p[1..], key)
  }

  /** What `delete` keeps: exactly the pairs under other keys. */
  lemma {:induction false} DeleteMembers(p: Params, key: string)
    ensures forall x :: x in Delete(p, key) <==> x in p && x.0 != key
    decreases |p|
  {
    if |p| > 0 {
      DeleteMembers(p[1..], key);
    }
  }

  /** `params.append(key, value)`. */
  function Append(p: Params, key: string, value: string): Params {
    p + [(key, value)]
  }

  /** The `delete(key)` followed by `append(key, value)` idiom. */
  function Put(p: Params, key: string, value: string): Params {
    Append(Delete(p, key), key, value)
  }

  /**
   After a `Put` there is exactly one pair under `key`, it holds `value`, and
   the pairs under every other key are those of `p`, in the same order.
   */
  lemma SelectAfterPut(p: Params, key: string, value: string)
    ensures Select(Put(p, key, value), key) == [(key, value)]
    ensures forall k :: k != key ==> Select(Put(p, key, value), k) == Select(p, k)
  {
    var d := Delete(p, key);
    SelectOfDelete(p, key);
    SelectConcat(d, [(key, value)], key);
    assert Select([(key, value)], key) == [(key, value)];
    forall k | k != key
      ensures Select(d + [(key, value)], k) == Select(p, k)
    {
      SelectConcat(d, [(key, value)], k);
      assert Select([(key, value)], k) == [];
    }
  }

  lemma {:induction false} SelectConcat(a: Params, b: Params, k: string)
    ensures Select(a + b, k) == Select(a, k) + Select(b, k)
    decreases |a|
  {
    if |a| > 0 {
      SelectConcat(a[1..], b, k);
      assert (a + b)[1..] == a[1..] + b;
    } else {
      assert a + b == b;
    }
  }

  lemma {:induction false} DeleteConcat(a: Params, b: Params, key: string)
    ensures Delete(a + b, key) == Delete(a, key) + Delete(b, key)
    decreases |a|
  {
    if |a| > 0 {
      DeleteConcat(a[1..], b, key);
      assert (a + b)[1..] == a[1..] + b;
    } else {
      assert a + b == b;
    }
  }

  /** Deleting `key` empties its selection and leaves every other selection alone. */
  lemma {:induction false} SelectOfDelete(p: Params, key: string)
    ensures Select(Delete(p, key), key) == []
    ensures forall k :: k != key ==> Select(Delete(p, key), k) == Select(p, k)
    decreases |p|
  {
    if |p| > 0 {
      SelectOfDelete(p[1..], key);
      var head: Params := if p[0].0 == key then [] else [p[0]];
      assert Select(Delete(p, key), key) == [] by {
        SelectConcat(head, Delete(p[1..], key), key);
      }
      forall k | k != key
        ensures Select(Delete(p, key), k) == Select(p, k)
      {
        SelectConcat(head, Delete(p[1..], key), k);
      }
    }
  }

  /** Deleting a key nobody uses changes nothing. */
  lemma {:induction false} DeleteAbsent(p: Params, key: string)
    requires forall i :: 0 <= i < |p| ==> p[i].0 != key
    ensures Delete(p, key) == p
    decreases |p|
  {
    if |p| > 0 {
      DeleteAbsent(p[1..], key);
    }
  }

  /** `get` reads the first pair of the key's selection: it sees nothing else of `p`. */
  lemma {:induction false} GetIsFirstSelected(p: Params, key: string)
    ensures Get(p, key) == if Select(p, key) == [] then None else Some(Select(p, key)[0].1)
    decreases |p|
  {
    if |p| > 0 {
      GetIsFirstSelected(p[1..], key);
    }
  }

  /** After a `Put`, `get` returns the value put under that key, and the same as before under any other. */
  lemma GetAfterPut(p: Params, key: string, value: string, other: string)
    requires other != key
    ensures Get(Put(p, key, value), key) == Some(value)
    ensures Get(Put(p, key, value), other) == Get(p, other)
  {
    SelectAfterPut(p, key, value);
    GetIsFirstSelected(Put(p, key, value), key);
    GetIsFirstSelected(Put(p, key, value), other);
    GetIsFirstSelected(p, other);
  }
}
